=== FILE: README.md ===
# pycargo bootstrap, modelled in Dafny

pycargo is a command-line tool that bootstraps a Python project. It refuses an
existing directory, then does the following in order:

- creates the project directory;
- makes sure `git config --get` reports a `user.name` and a `user.email`,
  prompting on standard input for a missing one and writing it globally. A
  value set only in the system or repository configuration counts as present
  and is not written globally;
- makes sure `uv` is available, installing it with `pip` if not;
- enters the directory and runs `uv init .` and `uv venv .venv`;
- writes `requirements.txt` from the chosen setup template and installs it
  with `uv add -r requirements.txt` and `uv sync`;
- downloads `.gitignore` and `LICENSE`;
- initialises git and makes the first commit.

With `-g` it then creates a GitHub repository through the API, renames the
branch to `main`, adds `https://github.com/<user>/<repo>.git` as `origin` and
pushes. The `<user>` there is whatever `git config --global user.name`
prints. It can be empty when the name is configured only outside the global
file, and the URL is then `https://github.com//<repo>.git`. Every step is
chained with `?`, so the first failure ends the run.

This project models that orchestration in `src/main.rs` as pure functions.

- **Effects** holds the vocabulary. `Env` describes the outside world as
  oracles: whether the path exists, what each command reports, what each URL
  and the repository API answer, which files can be written, the lines
  standard input will deliver, and the token. `World` is the state threaded
  through a run: the trace of effects attempted so far, the input not yet
  read, and the global git settings this run wrote. `Since(before, after)` is
  the part of the trace a step added.
- **Steps** has one function per helper of `src/main.rs`. Each returns the
  new world and the helper's `Result`. Its contract says:
  - which effects it adds, in order;
  - when it succeeds;
  - which error it ends with: that of the command or call that failed.
  For `setup_github_remote` and the GitHub block, the order of the effects
  and the error of a failed run are stated by the lemmas `RemoteTrace` and
  `GitHubIntegrationTrace` rather than by the function's contract.
  Two more predicates per helper, `…Emits` and `…FailsWith`, list the effects
  it may add and the errors it may report.
- **Text** models `str::trim` on Unicode White_Space.
- **Pipeline** builds `main`:
  - `Plan(args)` is the list of steps;
  - `RunSteps` is the `?` chain over that list;
  - `Bootstrap` is `main` as a whole: the existence check, then the plan.
- **Provenance** holds the tools for reasoning about a whole run's trace:
  - which step added an effect;
  - where in the plan that step sits;
  - what the run did before and after it.
- **Properties** and **GitHubProperties** state what a whole run guarantees,
  over its trace.
- **Runs** predicts a run step by step from the oracles alone (`Replay`) and
  proves the prediction agrees with `RunSteps`. For the concrete plan this
  gives two results: the exact conditions under which `main` returns
  `Ok(())`, and the exact trace a successful run leaves.

Where descriptions of the tool and its code disagree, the model follows the
code:

- The directory is created before the identity and `uv` checks.
- An unknown setup name is rejected only after `uv init .` and
  `uv venv .venv` have run, and nothing is written then.
- `GITHUB_TOKEN` is checked only after the first commit, by
  `validate_env_vars`.
- An empty but set token is accepted.

## Model

| member | source | states |
|---|---|---|
| Steps.RunCommand | src/main.rs:314-336 | the command is recorded; the call succeeds exactly when the process started and exited with success; otherwise it fails with a spawn error or a command-failed error for that very command |
| Steps.GitCommand | src/main.rs:338-340 | `git` with the given arguments is recorded and succeeds exactly when it exits with success; otherwise it fails with that git command's spawn or exit error |
| Steps.LineSplit | src/main.rs:351-353 | reading a line splits standard input into that line and the rest; at the end of input the line is empty and nothing is left |
| Steps.RemoteUrlParts | src/main.rs:273 | the remote URL reads back as `https://github.com/`, the owner, `/`, the repository and `.git`, with nothing else |
| Steps.RemoteUrlOfOwner | src/main.rs:272-274 | whether or not the push succeeds, the only remote `setup_github_remote` adds is that of the repository under the user name `get_git_username` returned |
| Steps.GitHubRemoteUrl | src/main.rs:130-131 | the only remote the GitHub block adds is that of the repository it created, under the global user name, whatever happens to the push |
| Steps.CreateProjectDir | src/main.rs:72 | the directory creation is recorded and succeeds exactly when the file system allows it, failing with `CreateDirFailed(path)` otherwise |
| Steps.EnterProjectDir | src/main.rs:88 | entering the project directory is recorded and succeeds exactly when the change of directory is possible |
| Steps.GetUserInput | src/main.rs:349-355 | one line is consumed from standard input and returned trimmed, so no whitespace remains at either end |
| Steps.CheckGitConfig | src/main.rs:374-407 | the effects are the probe, then, only for a key git reports empty, a read of one line and a `git config --global key <trimmed line>`; one line of input is consumed exactly then; it succeeds exactly when git started and any write succeeded; the stored setting changes only on a successful write; its error is the probe's spawn failure or the write's failure |
| Steps.IdentityProvenance | src/main.rs:374-407 | every effect of the identity check is its probe or, for an unset key, a read or a `git config --global` of that key, and every error is about one of those commands |
| Steps.PromptsExactlyWhenUnset | src/main.rs:386-404 | standard input is read if and only if git printed nothing for the key (`Unset`: it started and its output is empty), and then the trimmed line is written; for a configured key only the probe runs, nothing else changes and the step succeeds |
| Steps.StoredValue | src/main.rs:392-398 | any `git config --global key v` the identity check runs has the key unset and `v` equal to the next input line, trimmed |
| Steps.CheckUvInstallation | src/main.rs:153-169 | `uv --version` always runs first; `pip install uv` runs if and only if that probe failed; the step succeeds exactly when the probe or the install succeeded; a failure is the install's |
| Steps.SetupEnvironment | src/main.rs:171-189 | `uv init .` runs first; `uv venv .venv` runs if and only if it succeeded; a failed `uv init .` is the step's only effect and its error; a failure after a successful init is `uv venv .venv`'s; success needs both |
| Steps.Template | src/main.rs:197-206 | exactly the four setup names have a template: basic, advanced and data-science map to their embedded text, blank to the empty text |
| Steps.CreateRequirementsFile | src/main.rs:191-224 | an unknown setup fails with `InvalidSetup` having done nothing; otherwise the template is written, then, unless the write failed or the setup is blank, `uv add` runs, and `uv sync` runs only after a successful add; success exactly for a known, writable setup whose install (if any) succeeded; `InvalidSetup` is reported only for an unknown setup; an unwritable file gives `WriteFailed`; a failed `uv add` gives its own error and a failure after it is `uv sync`'s |
| Steps.RequirementsShape | src/main.rs:197-221 | the first effect for a known setup is writing its template verbatim; blank writes an empty file and installs nothing; `uv sync` in the effects implies the effects are write, add, sync and the add succeeded; a successful run's effects are exactly write plus add and sync for a non-blank setup |
| Steps.SyncAfterAdd | src/main.rs:212-218 | whenever `uv sync` runs, the setup is known and not blank, `uv add` succeeded and ran immediately before it |
| Steps.InstallRequirements | src/main.rs:217-218 | `uv add -r requirements.txt` runs, then `uv sync` only if the add succeeded; success needs both; a failed add is reported with the add's error and any later failure with the sync's |
| Steps.DownloadAndWriteFile | src/main.rs:226-247 | the fetch is always the first effect; without a success status and a readable body nothing is written and the step fails, with `DownloadFailed` for no response, `HttpStatus` for a bad status and `BodyUnreadable` for an unreadable body; with them, the body is written verbatim to the file and success depends only on the write, whose failure is `WriteFailed` |
| Steps.InitializeGitRepo | src/main.rs:249-263 | the effects are the prefix of init, autocrlf, add, commit up to the first command that fails; success exactly when all four succeed; an error names the last command run |
| Steps.GitInitShape | src/main.rs:255-258 | every command before the last one run succeeded, a failed run's last command failed and is the one named by the error, and success means all four ran |
| Steps.ValidateEnvVars | src/main.rs:342-347 | succeeds exactly when the token is set, failing with `TokenNotSet` otherwise |
| Steps.CreateGithubRepo | src/main.rs:282-312 | without a token nothing happens and it fails with `TokenNotSet`; with one, the API call is the only effect and it succeeds exactly for a success status; an unanswered call and a rejected one fail with distinct errors, the latter carrying the body or the empty text |
| Steps.GetGitUsername | src/main.rs:358-371 | the probe is recorded; it succeeds whenever git started, whatever its exit status, and returns the trimmed user name (`Owner`), which is the one this run stored if it stored one |
| Steps.SetupGithubRemote | src/main.rs:265-280 | the branch rename runs first; success exactly when the rename, the user-name probe, the remote add and the push all go through; then the effects are those four commands and the returned URL is `https://github.com/<owner>/<repo>.git` |
| Steps.AddRemoteAndPush | src/main.rs:273-279 | the remote added is the URL built from the user and the repository; the push runs exactly when that add succeeded, and nothing runs after a failed add; the error is the push's if the add succeeded and the add's otherwise; success needs both |
| Steps.RemoteTrace | src/main.rs:271-275 | `setup_github_remote` runs branch rename, user-name probe, remote add and push in that order, and stops at the first that fails; that one is the command its error names, so there is no push after a failed `git remote add` |
| Steps.PushAfterRemoteAdd | src/main.rs:274-275 | `setup_github_remote` pushes only after the `git remote add` of the owner's remote succeeded |
| Steps.GitHubPushAfterAdd | src/main.rs:130-131 | the GitHub block pushes only after the `git remote add` of the owner's remote succeeded |
| Steps.GitHubIntegration | src/main.rs:122-140 | without a token nothing happens; otherwise the API call comes first; an API failure is the block's only effect, and the block fails with the API call's own error; a success returns the remote URL for the expected owner |
| Steps.GitHubIntegrationOk | src/main.rs:129-131 | the GitHub block succeeds if and only if the token is set, the API accepts the repository and every remote command succeeds |
| Steps.GitHubIntegrationTrace | src/main.rs:129-131 | once the API accepted, the block adds the API call, then branch rename, user-name probe, remote add and push up to the first that fails, whose error it reports; a successful block adds all of them |
| Text.Trim | src/main.rs:354 | the result is a stretch of the input with only whitespace before and after it, and has no whitespace at either end itself; an already trimmed string is left alone, and the result is empty exactly for an all-whitespace input |
| Text.TrimUnique | src/main.rs:354 | those properties determine the result: any trimmed stretch of `s` with only whitespace around it is `Trim(s)` |
| Text.TrimPadded | src/main.rs:354 | `" a "` trims to `"a"` |
| Text.TrimIgnoresNewline | src/main.rs:365-368 | trimming a value followed by the newline git prints gives the trimmed value |
| Pipeline.PlanOrder | src/main.rs:72-131 | `main` runs exactly ten local steps in source order (directory, user.name, user.email, uv, enter directory, environment, requirements, .gitignore, LICENSE, git init), then the GitHub block only with `-g`; the repository is named by `--github-repo-name`, or else after the project (lines 124-127) |
| Provenance.PlanMembers | src/main.rs:72-131 | a step belongs to the plan if and only if it is one of the ten local steps, or the GitHub block for the defaulted repository name and `--private` under `-g` |
| Pipeline.RunSteps | src/main.rs:72-140 | the `?` chain only appends to the trace, every effect it adds comes from one of its steps, and every error it reports is one of its steps' errors |
| Pipeline.RunStep | src/main.rs:72-131 | each step only appends to the trace, adds only effects that step may add, and fails only with errors that step may report |
| Pipeline.Bootstrap | src/main.rs:52-151 | an existing path fails at once with nothing done; otherwise the first effect is creating the directory, and every effect comes from a step of the plan |
| Pipeline.ShortCircuit | src/main.rs:72-140 | a failed run is a successful run of some prefix followed by the one failing step and nothing after it; in a successful run every step succeeded |
| Pipeline.RemoteFailureLast | src/main.rs:130 | with a token and a failed API call, the GitHub block fails with `ApiUnreachable` or with the API's response body, and the API call is the last effect |
| Provenance.LocalPlanCommitted | src/main.rs:114 | a local part that succeeded ran `git commit` successfully |
| Provenance.OnlyIdentityReads | src/main.rs:386-392 | the only step that reads standard input is an identity check, and only for an unset key |
| Provenance.OnlyUvCheck | src/main.rs:159-162 | `uv --version` and `pip install uv` come only from the uv check, and pip only when the probe fails |
| Provenance.OnlyDownloadWrites | src/main.rs:241-243 | any file other than requirements.txt is written only by a download of a good fetch, with that fetch's body |
| Provenance.OnlyRemoteIntegration | src/main.rs:122-140 | the API call and the remote commands come only from the GitHub block, only with a token, and the remote commands only after the API accepted the repository |
| Provenance.OnlyManifestRejects | src/main.rs:205 | only writing the manifest rejects a setup name, and only its own |
| Provenance.OnlyRemoteNeedsToken | src/main.rs:129 | only the GitHub block fails for a missing token |
| Properties.IdentityEmitters | src/main.rs:79-80 | in the plan, only the identity check for a key probes or sets that key |
| Properties.InputAfterName | src/main.rs:79-80 | the `user.email` check reads from the input left after the `user.name` check, which took one line exactly when the name was unset |
| Properties.ExistingDirectoryOnly | src/main.rs:63-69 | the run reports an existing directory if and only if the path exists, and then its trace is empty |
| Properties.ReadsOnlyWhenUnset | src/main.rs:79-80 | standard input is read only when `user.name` or `user.email` is unset |
| Properties.NameFromFirstLine | src/main.rs:79 | a `user.name` write happens only for an unset name, and its value is the first input line, trimmed |
| Properties.EmailFromNextLine | src/main.rs:80 | a `user.email` write happens only for an unset email, and its value is the next input line after the one `user.name` took, if it took one, trimmed |
| Properties.UnsetNameIsWritten | src/main.rs:79 | once the `user.name` probe ran and the name is unset, the run reads a line and writes the trimmed first line |
| Properties.UnsetEmailIsWritten | src/main.rs:80 | once the `user.email` probe ran and the email is unset, the run reads a line and writes some value |
| Properties.PipOnlyAfterFailedProbe | src/main.rs:159-162 | `pip install uv` runs only right after a failed `uv --version` |
| Properties.UvFallback | src/main.rs:159-167 | once `uv --version` ran, `pip install uv` runs if and only if the probe failed |
| Properties.RequirementsAreTemplate | src/main.rs:197-208 | requirements.txt only receives the chosen setup's template, verbatim, and only for one of the four known setups |
| Properties.BlankSkipsInstall | src/main.rs:212 | with the blank setup neither `uv add` nor `uv sync` ever runs |
| Properties.SyncFollowsAdd | src/main.rs:217-218 | `uv sync` runs only for a known non-blank setup, immediately after a successful `uv add` |
| Properties.InvalidSetupFailsLate | src/main.rs:72-98 | an unknown setup always fails the run and never writes requirements.txt; the failure is the setup rejection if and only if the directory was created and entered and `uv init .` and `uv venv .venv` both ran and succeeded |
| Properties.RejectedAfterVenv | src/main.rs:72-98 | a run is rejected for its setup name only when that name is unknown, and it had created and entered the directory and run `uv init .` and `uv venv .venv` successfully |
| Properties.OpeningSucceeded | src/main.rs:72-91 | a run that reached the requirements step had created and entered the project directory |
| Properties.VenvThenRejected | src/main.rs:91-98 | with an unknown setup, a successful `uv venv .venv` is followed by the rejection as the run's result |
| Properties.LicenseAfterGitignore | src/main.rs:105-108 | the LICENSE is fetched only after the .gitignore was fetched successfully |
| Properties.GitInitAfterGitignore | src/main.rs:105-114 | `git init` runs only after the .gitignore was fetched successfully |
| Properties.GitignoreFailureStops | src/main.rs:105-114 | when the .gitignore cannot be fetched, the run fails, the LICENSE is never fetched, git is never initialised and no .gitignore is written |
| GitHubProperties.NoGitHubWithoutFlag | src/main.rs:123 | without `-g` no API call, branch rename, user-name probe, remote add or push happens, and the run never fails for the token |
| GitHubProperties.ApiCallShape | src/main.rs:123-130 | the API is called only with `-g` and a token, for `--github-repo-name` or else the project name, with the `--private` flag |
| GitHubProperties.RemoteNeedsApi | src/main.rs:130-131 | branch rename, user-name probe, remote add and push happen only after the API accepted the repository |
| GitHubProperties.PushAfterAdd | src/main.rs:272-275 | a push in the trace means the `git remote add` of `https://github.com/<user>/<repo>.git` succeeded, for the global user name and the repository the run created |
| GitHubProperties.RemoteUrlShape | src/main.rs:272-274 | any remote added is `https://github.com/<user>/<repo>.git` for the repository the run created, `<user>` being the global user name: the one the run stored, or else the one git reports; this holds whether or not the push then succeeds |
| GitHubProperties.ApiAfterCommit | src/main.rs:114-130 | the repository is created only after `git commit` ran and succeeded |
| GitHubProperties.ApiFailureEndsRun | src/main.rs:300-304 | a rejected or unanswered API call fails the run and is its last effect; the run's error is `ApiUnreachable` for no answer and otherwise carries the response body |
| GitHubProperties.TokenCheckedAfterCommit | src/main.rs:114-129 | with `-g` and no token the API is never called and the run fails; it fails on the token if and only if the first commit went through |
| GitHubProperties.TokenFailureAfterCommit | src/main.rs:114-129 | a run that failed on the token had committed |
| GitHubProperties.CommitThenTokenFailure | src/main.rs:114-129 | with `-g` and no token, a run that committed fails on the token next |
| Runs.IdentityOutcome | src/main.rs:374-407 | the identity check succeeds exactly when the oracles say it passes, and then it leaves the predicted world |
| Runs.UvOutcome | src/main.rs:153-169 | the uv check succeeds exactly when the prediction passes, and leaves the predicted world |
| Runs.EnvironmentOutcome | src/main.rs:171-189 | environment setup succeeds exactly when the prediction passes, and leaves the predicted world |
| Runs.ManifestOutcome | src/main.rs:191-224 | writing the manifest succeeds exactly when the prediction passes, and leaves the predicted world |
| Runs.DownloadOutcome | src/main.rs:226-247 | a download succeeds exactly for a good fetch into a writable file, and leaves the predicted world |
| Runs.GitInitOutcome | src/main.rs:249-263 | git initialisation succeeds exactly when the prediction passes, and leaves the predicted world |
| Runs.RemoteOutcome | src/main.rs:122-140 | the GitHub block succeeds exactly when the prediction passes, and leaves the predicted world |
| Runs.StepOutcome | src/main.rs:72-131 | every step agrees with its prediction: it succeeds exactly when predicted, ending in the predicted world |
| Runs.RunStepsReplay | src/main.rs:72-140 | the `?` chain succeeds exactly when the step-by-step prediction does, and ends in the predicted world |
| Runs.ReplayOpening | src/main.rs:72-80 | directory creation and both identity checks pass exactly under the predicted conditions; they leave the predicted trace and the expected remote owner |
| Runs.LocalOwner | src/main.rs:79-114 | after a successful local part, the user name `get_git_username` reads is the one the run stored, if it stored one, and otherwise the one git reports |
| Runs.OpeningWorld | src/main.rs:79-80 | after the opening steps, the owner `get_git_username` would report is the name this run stored, if it stored one, and otherwise the one git reports |
| Runs.ReplayMiddle | src/main.rs:83-98 | the uv check, entering the directory, environment setup and the manifest pass exactly under the predicted conditions and add the predicted effects |
| Runs.ReplayClosing | src/main.rs:105-114 | the two downloads and the first commit pass exactly under the predicted conditions and add the predicted effects |
| Runs.ReplayRemote | src/main.rs:122-140 | the GitHub block, run after the local part, passes exactly under the predicted conditions and adds the API call and the four remote commands |
| Runs.ReplayLocal | src/main.rs:63-114 | the local part passes exactly under the predicted conditions, leaving the predicted trace and owner |
| Runs.ReplayPlan | src/main.rs:72-140 | the whole plan passes exactly under the predicted conditions, leaving the predicted trace |
| Runs.SuccessExactly | src/main.rs:52-151 | `main` returns `Ok(())` if and only if the path is free and the world cooperates with every step, with the GitHub conditions only under `-g`; a successful run leaves exactly the local effects followed by the GitHub effects, in order |

## Left out

- Terminal output is left out: spinners, coloured messages and `println!` never influence control flow.
- Process output is reduced: stderr, the text of error messages and anyhow's context strings are not modelled. Errors are the `Error` datatype instead.
- Argument parsing by clap is not modelled; `Args` is the parsed result, including the default setup `advanced`.
- The `--version` check at lines 57-59 is not modelled. `Args::parse()` on line 54, the first statement of `main`, already prints the version and exits for `--version`, so the check is never reached with that flag.
- Asynchrony (tokio) is left out: the steps run one after the other, which is what `.await?` gives.
- The world is oracles: what each command, URL and the API answer is an input, independent of what ran before. The one exception is the global `user.name` this run stores, which `git config --global user.name` then reports. The files that `uv`, git and the downloads create are not modelled.
- Template texts are left out: the three embedded requirement lists are opaque strings in `Env.templates`.
- UTF-8 decoding is left out: `String::from_utf8` in `get_git_username` cannot fail on the model's strings. Likewise `response.text()` is modelled as an optional body.
- A failed read of standard input (`expect` in `get_user_input`) is not modelled. At end of input the line read is empty. A line is modelled without its newline, which `trim` removes anyway.
- The JSON payload, headers and URL of the repository-creation request are not modelled. The API is an oracle keyed by repository name and visibility.
- `trim_end_matches(".git")` on the printed URL is display only.
- `spinner_style` is not part of this model.

=== FILE: effects.dfy ===
/** The vocabulary of the bootstrap: parsed arguments, the external world as
    oracles, the effects the program performs and the errors it reports. */
module Effects {

  datatype Option<+T> = None | Some(value: T) {
    function GetOr(default: T): T {
      match this
      case Some(v) => v
      case None => default
    }
  }

  /** The parsed command line (`Args` in src/main.rs). */
  datatype Args = Args(
    name: string,
    githubRepo: bool,
    githubRepoName: Option<string>,
    setup: string,
    private: bool)

  /** An external program and its arguments. */
  datatype Command = Command(program: string, args: seq<string>)

  function Git(args: seq<string>): Command {
    Command("git", args)
  }

  const UvVersion := Command("uv", ["--version"])
  const PipInstallUv := Command("pip", ["install", "uv"])
  const UvInit := Command("uv", ["init", "."])
  const UvVenv := Command("uv", ["venv", ".venv"])
  const UvAdd := Command("uv", ["add", "-r", "requirements.txt"])
  const UvSync := Command("uv", ["sync"])

  const GitInit := Git(["init"])
  const GitAutocrlf := Git(["config", "core.autocrlf", "true"])
  const GitAddAll := Git(["add", "."])
  const GitCommit := Git(["commit", "-m", "Initial commit"])
  const GitBranchMain := Git(["branch", "-M", "main"])
  const GitUserProbe := Git(["config", "--global", "user.name"])
  const GitPush := Git(["push", "-u", "origin", "main"])

  function GitConfigGet(key: string): Command {
    Git(["config", "--get", key])
  }

  function GitConfigSet(key: string, value: string): Command {
    Git(["config", "--global", key, value])
  }

  function GitRemoteAdd(url: string): Command {
    Git(["remote", "add", "origin", url])
  }

  /** A `git remote add origin` with one more argument is `GitRemoteAdd` of it. */
  lemma RemoteAddForm(c: Command)
    requires c.program == "git" && |c.args| == 4 && c.args[..3] == ["remote", "add", "origin"]
    ensures c == GitRemoteAdd(c.args[3])
  {
    assert c.args == c.args[..3] + [c.args[3]];
  }

  /** Adding a remote is neither renaming the branch nor reading the user name. */
  lemma RemoteAddDistinct()
    ensures forall u :: GitRemoteAdd(u) != GitBranchMain && GitRemoteAdd(u) != GitUserProbe
  {
    forall u ensures GitRemoteAdd(u) != GitBranchMain && GitRemoteAdd(u) != GitUserProbe {
      assert |GitRemoteAdd(u).args| == 4;
    }
  }

  /** Pushing is none of the other commands of `setup_github_remote`. */
  lemma PushDistinct()
    ensures GitPush != GitBranchMain && GitPush != GitUserProbe
    ensures forall u :: GitRemoteAdd(u) != GitPush
  {
    forall u ensures GitRemoteAdd(u) != GitPush {
      assert GitRemoteAdd(u).args[0] != GitPush.args[0];
    }
  }

  /** Any `git config --global <key> <value>` command, whatever the value. */
  predicate IsConfigSet(c: Command, key: string) {
    c.program == "git" && |c.args| == 4 && c.args[..3] == ["config", "--global", key]
  }

  const GitignoreUrl := "https://raw.githubusercontent.com/github/gitignore/main/Python.gitignore"
  const LicenseUrl := "https://www.apache.org/licenses/LICENSE-2.0.txt"
  const RequirementsFile := "requirements.txt"

  /** The setup names `create_requirements_file` recognises. */
  const KnownSetups: set<string> := {"basic", "advanced", "data-science", "blank"}

  /** What spawning a process and waiting for it reports: it could not be
      started, or it exited with a status and printed `stdout`. */
  datatype Process = NotSpawned | Exited(success: bool, stdout: string)

  /** What an HTTP request reports: no response at all, or a status and a body
      that could (`Some`) or could not (`None`) be read. */
  datatype Reply = NoResponse | Response(status: int, body: Option<string>)

  /** `StatusCode::is_success`. */
  predicate IsSuccess(status: int) {
    200 <= status <= 299
  }

  /** The three requirement lists embedded in the binary with `include_str!`;
      their text is not part of this model. */
  datatype Templates = Templates(basic: string, advanced: string, dataScience: string)

  /** The world outside the program, as oracles.
      - `pathExists`: `fs::metadata(name)` succeeds;
      - `createDirOk`, `chdirOk`: `fs::create_dir` and `env::set_current_dir` succeed;
      - `process`: what running each command reports;
      - `get`: the reply to a GET of each URL;
      - `createRepo`: the reply of the repository-creation API for a name and visibility;
      - `writable`: `fs::write` of each file name succeeds;
      - `stdin`: the lines standard input will deliver;
      - `token`: `GITHUB_TOKEN`, if set. */
  datatype Env = Env(
    pathExists: bool,
    createDirOk: bool,
    chdirOk: bool,
    process: Command -> Process,
    get: string -> Reply,
    createRepo: (string, bool) -> Reply,
    writable: string -> bool,
    stdin: seq<string>,
    token: Option<string>,
    templates: Templates)

  /** The command ran and exited with success (what `run` accepts). */
  predicate Succeeds(env: Env, c: Command) {
    env.process(c).Exited? && env.process(c).success
  }

  /** One thing the program did to the world, recorded when it is attempted. */
  datatype Effect =
    | CreateDir(path: string)
    | Exec(command: Command)
    | ReadLine
    | ChangeDir(path: string)
    | WriteFile(name: string, content: string)
    | Fetch(url: string)
    | CreateRepo(repo: string, private: bool)

  datatype Error =
    | DirectoryExists(path: string)
    | CreateDirFailed(path: string)
    | SpawnFailed(command: Command)
    | CommandFailed(command: Command)
    | ChangeDirFailed(path: string)
    | InvalidSetup(setup: string)
    | WriteFailed(name: string)
    | DownloadFailed(url: string)
    | HttpStatus(url: string, status: int)
    | BodyUnreadable(url: string)
    | TokenNotSet
    | ApiUnreachable
    | GitHubApi(body: string)

  /** The errors running `c` can end with. */
  predicate IsCommandError(err: Error, c: Command) {
    err == SpawnFailed(c) || err == CommandFailed(c)
  }

  datatype Result<+T> = Ok(value: T) | Err(error: Error)

  /** The state a run threads through its steps: the effects so far, the
      standard input not yet read, and the global git settings this run wrote. */
  datatype World = World(trace: seq<Effect>, stdin: seq<string>, globalConfig: map<string, string>)

  function Start(env: Env): World {
    World([], env.stdin, map[])
  }

  datatype Outcome<+T> = Outcome(world: World, result: Result<T>)

  /** The effects `after` added to `before`. */
  function Since(before: World, after: World): seq<Effect>
    requires before.trace <= after.trace
  {
    after.trace[|before.trace|..]
  }

  /** The effects added over two stretches are those of the first, then the second. */
  lemma SinceAppend(a: World, b: World, c: World)
    requires a.trace <= b.trace <= c.trace
    ensures Since(a, c) == Since(a, b) + Since(b, c)
  {
  }

  /** A later world's trace is the earlier one's followed by what was added since. */
  lemma SinceRebuild(a: World, b: World)
    requires a.trace <= b.trace
    ensures b.trace == a.trace + Since(a, b)
  {
  }

  /** An effect added between `a` and `b` is in any trace `b`'s trace starts. */
  lemma SinceWithin(a: World, b: World, t: seq<Effect>, e: Effect)
    requires a.trace <= b.trace && b.trace <= t
    requires e in Since(a, b)
    ensures e in t
  {
    var i :| |a.trace| <= i < |b.trace| && b.trace[i] == e;
    assert t[i] == e;
  }

  function Record(w: World, e: Effect): World {
    w.(trace := w.trace + [e])
  }
}

=== FILE: github.dfy ===
/** What a whole run of `main` guarantees about the GitHub block, stated over
    its trace. */
module GitHubProperties {
  import opened Effects
  import opened Steps
  import opened Pipeline
  import opened Provenance
  import opened Runs

  /** Without `-g` nothing of the GitHub block happens: no API call, no branch
      rename, no remote, no push, and no complaint about the token. */
  lemma NoGitHubWithoutFlag(args: Args, env: Env, e: Effect)
    requires !args.githubRepo
    requires IsRemoteEffect(e)
    ensures e !in Trace(args, env)
    ensures Bootstrap(args, env).result != Err(TokenNotSet)
  {
    if e in Trace(args, env) {
      var t := Emitter(args, env, e);
      OnlyRemoteIntegration(env, t, e);
      RemoteStepIs(args, t);
    }
    if Bootstrap(args, env).result == Err(TokenNotSet) {
      RunsPlan(args, env, Plan(args));
      forall t | t in Plan(args) ensures !FailsWith(t, TokenNotSet) {
        if FailsWith(t, TokenNotSet) {
          OnlyRemoteNeedsToken(t);
          RemoteStepIs(args, t);
        }
      }
      NotFailedWith(env, Plan(args), Start(env), TokenNotSet);
    }
  }

  /** The repository-creation API is called only with `-g` and a token, for
      `--github-repo-name` or else the project name, with the `--private` flag. */
  lemma ApiCallShape(args: Args, env: Env, repo: string, private: bool)
    requires CreateRepo(repo, private) in Trace(args, env)
    ensures args.githubRepo && env.token.Some?
    ensures repo == args.githubRepoName.GetOr(args.name)
    ensures private == args.private
  {
    var t := Emitter(args, env, CreateRepo(repo, private));
    OnlyRemoteIntegration(env, t, CreateRepo(repo, private));
    RemoteStepIs(args, t);
  }

  /** Renaming the branch, reading the user name, adding the remote and pushing
      all happen only after the API accepted the repository. */
  lemma RemoteNeedsApi(args: Args, env: Env, e: Effect)
    requires IsRemoteEffect(e) && !e.CreateRepo?
    requires e in Trace(args, env)
    ensures args.githubRepo && env.token.Some?
    ensures ApiOk(env, RepoName(args), args.private)
  {
    var t := Emitter(args, env, e);
    OnlyRemoteIntegration(env, t, e);
    RemoteStepIs(args, t);
  }

  /** The remote added is `https://github.com/<user>/<repo>.git` for the
      repository the run created, `<user>` being the global user name: the one
      this run stored, or else the one git reports. This holds whether or not
      the push that follows succeeds. */
  lemma RemoteUrlShape(args: Args, env: Env, c: Command)
    requires Exec(c) in Trace(args, env)
    requires c.program == "git" && |c.args| == 4 && c.args[..3] == ["remote", "add", "origin"]
    ensures c == GitRemoteAdd(RemoteUrl(ExpectedOwner(env), RepoName(args)))
  {
    var p := LocateRemoteCommand(args, env, Exec(c));
    LocalOwner(args, env);
    RemoteAddedBy(env, p, RepoName(args), args.private, c);
  }

  /** A `git remote add origin` the GitHub block runs from `p` names the
      remote of `repo` under the user name `p` holds. */
  lemma RemoteAddedBy(env: Env, p: World, repo: string, private: bool, c: Command)
    requires Exec(c) in Since(p, GitHubIntegration(env, p, repo, private).world)
    requires c.program == "git" && |c.args| == 4 && c.args[..3] == ["remote", "add", "origin"]
    ensures c == GitRemoteAdd(RemoteUrl(Owner(env, p), repo))
  {
    RemoteAddForm(c);
    GitHubRemoteUrl(env, p, repo, private);
  }

  /** A push in the trace follows a successful `git remote add` of the
      repository's remote under the run's user name. */
  lemma PushAfterAdd(args: Args, env: Env)
    requires Exec(GitPush) in Trace(args, env)
    ensures Succeeds(env, GitRemoteAdd(RemoteUrl(ExpectedOwner(env), RepoName(args))))
  {
    var p := LocateRemoteCommand(args, env, Exec(GitPush));
    LocalOwner(args, env);
    GitHubPushAfterAdd(env, p, RepoName(args), args.private);
  }

  /** Where a command of `setup_github_remote` shows up in the trace, the
      GitHub block added it, running in the world `p` the whole local plan
      left. */
  lemma LocateRemoteCommand(args: Args, env: Env, e: Effect) returns (p: World)
    requires e in Trace(args, env)
    requires IsRemoteEffect(e) && !e.CreateRepo?
    ensures !env.pathExists
    ensures RunSteps(env, LocalPlan(args), Start(env)).result.Ok?
    ensures RunSteps(env, LocalPlan(args), Start(env)).world == p
    ensures e in Since(p, GitHubIntegration(env, p, RepoName(args), args.private).world)
  {
    var s := RemoteIntegration(RepoName(args), args.private);
    forall t | t in Plan(args) && Emits(env, t, e) ensures t == s {
      OnlyRemoteIntegration(env, t, e);
      RemoteStepIs(args, t);
    }
    var t := Emitter(args, env, e);
    assert Plan(args) == LocalPlan(args) + [s] + [];
    p := LocateUnique(args, env, LocalPlan(args), s, [], e);
    PathAbsent(args, env, e);
    StepBody(env, s, p);
  }

  /** Where the API call shows up in the trace, the GitHub block ran in the
      world `p` the whole local plan left, having succeeded. */
  lemma LocateApiCall(args: Args, env: Env, repo: string, private: bool) returns (p: World)
    requires CreateRepo(repo, private) in Trace(args, env)
    ensures args.githubRepo && repo == RepoName(args) && private == args.private
    ensures !env.pathExists
    ensures RunSteps(env, LocalPlan(args), Start(env)).result.Ok?
    ensures RunSteps(env, LocalPlan(args), Start(env)).world == p
    ensures var q := RunStep(env, RemoteIntegration(repo, private), p);
      && p.trace <= q.world.trace <= Trace(args, env)
      && CreateRepo(repo, private) in Since(p, q.world)
  {
    var e := CreateRepo(repo, private);
    ApiCallShape(args, env, repo, private);
    var s := RemoteIntegration(repo, private);
    forall t | t in Plan(args) && Emits(env, t, e) ensures t == s {
      OnlyRemoteIntegration(env, t, e);
    }
    assert Plan(args) == LocalPlan(args) + [s] + [];
    p := LocateUnique(args, env, LocalPlan(args), s, [], e);
    PathAbsent(args, env, e);
  }

  /** The repository is created only after the local repository was committed. */
  lemma ApiAfterCommit(args: Args, env: Env, repo: string, private: bool)
    requires CreateRepo(repo, private) in Trace(args, env)
    ensures Succeeds(env, GitCommit)
    ensures Exec(GitCommit) in Trace(args, env)
  {
    var p := LocateApiCall(args, env, repo, private);
    LocalPlanCommitted(args, env);
  }

  /** A rejected or unanswered API call ends the run, as its last effect. */
  lemma ApiFailureEndsRun(args: Args, env: Env, repo: string, private: bool)
    requires CreateRepo(repo, private) in Trace(args, env)
    requires !ApiOk(env, repo, private)
    ensures Bootstrap(args, env).result.Err?
    ensures Trace(args, env)[|Trace(args, env)| - 1] == CreateRepo(repo, private)
    ensures env.createRepo(repo, private).NoResponse? ==> Bootstrap(args, env).result == Err(ApiUnreachable)
    ensures env.createRepo(repo, private).Response? ==>
      Bootstrap(args, env).result == Err(GitHubApi(env.createRepo(repo, private).body.GetOr("")))
  {
    var p := LocateApiCall(args, env, repo, private);
    ApiCallShape(args, env, repo, private);
    RemoteFailureLast(env, p, repo, private);
    Continue(args, env, LocalPlan(args), RemoteIntegration(repo, private), [], p);
    assert Trace(args, env) == p.trace + [CreateRepo(repo, private)];
  }

  /** With `-g` but no token the run fails without calling the API, and it
      fails on the token exactly when the initial commit went through: the
      token is checked only after all the local work is done. */
  lemma TokenCheckedAfterCommit(args: Args, env: Env)
    requires args.githubRepo && env.token.None?
    ensures forall r, v :: CreateRepo(r, v) !in Trace(args, env)
    ensures Bootstrap(args, env).result.Err?
    ensures Bootstrap(args, env).result == Err(TokenNotSet)
        <==> Exec(GitCommit) in Trace(args, env) && Succeeds(env, GitCommit)
  {
    forall r, v ensures CreateRepo(r, v) !in Trace(args, env) {
      if CreateRepo(r, v) in Trace(args, env) {
        ApiCallShape(args, env, r, v);
      }
    }
    if Bootstrap(args, env).result.Ok? {
      var w := StepOkAt(args, env, 10);
      StepBody(env, Plan(args)[10], w);
    }
    if Bootstrap(args, env).result == Err(TokenNotSet) {
      TokenFailureAfterCommit(args, env);
    }
    if Exec(GitCommit) in Trace(args, env) && Succeeds(env, GitCommit) {
      CommitThenTokenFailure(args, env);
    }
  }

  /** A run that failed on the token had committed. */
  lemma TokenFailureAfterCommit(args: Args, env: Env)
    requires Bootstrap(args, env).result == Err(TokenNotSet)
    ensures Exec(GitCommit) in Trace(args, env) && Succeeds(env, GitCommit)
  {
    var s := RemoteIntegration(RepoName(args), args.private);
    forall t | t in Plan(args) && FailsWith(t, TokenNotSet) ensures t == s {
      OnlyRemoteNeedsToken(t);
      RemoteStepIs(args, t);
    }
    assert Plan(args) == LocalPlan(args) + [s] + [];
    assert forall t | t in LocalPlan(args) :: t != s;
    var p := LocateFailure(args, env, LocalPlan(args), s, [], TokenNotSet);
    StepBody(env, s, p);
    LocalPlanCommitted(args, env);
  }

  /** With `-g` and no token, a run that committed fails on the token next. */
  lemma CommitThenTokenFailure(args: Args, env: Env)
    requires args.githubRepo && env.token.None?
    requires Exec(GitCommit) in Trace(args, env) && Succeeds(env, GitCommit)
    ensures Bootstrap(args, env).result == Err(TokenNotSet)
  {
    var e := Exec(GitCommit);
    var s := RemoteIntegration(RepoName(args), args.private);
    var a := LocalPlan(args)[..9];
    assert LocalPlan(args) == a + [RepositoryInit];
    forall t | t in Plan(args) && Emits(env, t, e) ensures t == RepositoryInit {
      OnlyRepositoryInit(env, t, e);
    }
    assert Plan(args) == a + [RepositoryInit] + [s];
    var p := LocateUnique(args, env, a, RepositoryInit, [s], e);
    StepBody(env, RepositoryInit, p);
    var q := InitializeGitRepo(env, p);
    assert |Since(p, q.world)| == 4;
    PathAbsent(args, env, e);
    Continue(args, env, a, RepositoryInit, [s], p);
    RunStepsCons(env, s, [], q.world);
    StepBody(env, s, q.world);
  }
}

=== FILE: pipeline.dfy ===
/** `main` of src/main.rs: the directory-exists check, then a fixed list of
    steps, each ended by `?`, so the first step that fails ends the run. */
module Pipeline {
  import opened Effects
  import opened Steps

  /** The steps of `main`, in the order the code takes them. */
  datatype Step =
    | MakeProjectDir(path: string)
    | IdentityCheck(key: string)
    | UvCheck
    | EnterDir(path: string)
    | EnvironmentInit
    | ManifestWrite(setup: string)
    | AssetDownload(url: string, file: string)
    | RepositoryInit
    | RemoteIntegration(repo: string, private: bool)

  /** The GitHub repository name: `--github-repo-name`, or else the project name. */
  function RepoName(args: Args): string {
    args.githubRepoName.GetOr(args.name)
  }

  /** Everything `main` does locally, from creating the directory to the first commit. */
  function LocalPlan(args: Args): seq<Step> {
    [ MakeProjectDir(args.name),
      IdentityCheck("user.name"),
      IdentityCheck("user.email"),
      UvCheck,
      EnterDir(args.name),
      EnvironmentInit,
      ManifestWrite(args.setup),
      AssetDownload(GitignoreUrl, ".gitignore"),
      AssetDownload(LicenseUrl, "LICENSE"),
      RepositoryInit ]
  }

  /** The GitHub block, present only with `-g`. */
  function RemotePlan(args: Args): seq<Step> {
    if args.githubRepo then [RemoteIntegration(RepoName(args), args.private)] else []
  }

  function Plan(args: Args): seq<Step> {
    LocalPlan(args) + RemotePlan(args)
  }

  /** The plan is the ten local steps in the order `main` runs them, then the
      GitHub block only with `-g`, named after `--github-repo-name` or else
      the project. */
  lemma PlanOrder(args: Args)
    ensures |Plan(args)| == if args.githubRepo then 11 else 10
    ensures Plan(args)[..10] == LocalPlan(args)
    ensures LocalPlan(args)[0] == MakeProjectDir(args.name)
    ensures LocalPlan(args)[1] == IdentityCheck("user.name") && LocalPlan(args)[2] == IdentityCheck("user.email")
    ensures LocalPlan(args)[3] == UvCheck && LocalPlan(args)[4] == EnterDir(args.name)
    ensures LocalPlan(args)[5] == EnvironmentInit && LocalPlan(args)[6] == ManifestWrite(args.setup)
    ensures LocalPlan(args)[7] == AssetDownload(GitignoreUrl, ".gitignore")
    ensures LocalPlan(args)[8] == AssetDownload(LicenseUrl, "LICENSE")
    ensures LocalPlan(args)[9] == RepositoryInit
    ensures args.githubRepo ==> Plan(args)[10] == RemoteIntegration(RepoName(args), args.private)
    ensures args.githubRepoName.Some? ==> RepoName(args) == args.githubRepoName.value
    ensures args.githubRepoName.None? ==> RepoName(args) == args.name
  {
  }

  /** The effects step `s` can add, given the environment. */
  ghost predicate Emits(env: Env, s: Step, e: Effect) {
    match s
    case MakeProjectDir(p) => e == CreateDir(p)
    case IdentityCheck(key) => IdentityEmits(env, key, e)
    case UvCheck => UvCheckEmits(env, e)
    case EnterDir(p) => e == ChangeDir(p)
    case EnvironmentInit => EnvironmentEmits(env, e)
    case ManifestWrite(setup) => RequirementsEmits(env, setup, e)
    case AssetDownload(url, file) => DownloadEmits(env, url, file, e)
    case RepositoryInit => GitInitEmits(env, e)
    case RemoteIntegration(repo, private) => GitHubEmits(env, repo, private, e)
  }

  /** The errors step `s` can end with. */
  ghost predicate FailsWith(s: Step, err: Error) {
    match s
    case MakeProjectDir(p) => err == CreateDirFailed(p)
    case IdentityCheck(key) => IdentityFailsWith(key, err)
    case UvCheck => IsCommandError(err, PipInstallUv)
    case EnterDir(p) => err == ChangeDirFailed(p)
    case EnvironmentInit => IsCommandError(err, UvInit) || IsCommandError(err, UvVenv)
    case ManifestWrite(setup) => RequirementsFailsWith(setup, err)
    case AssetDownload(url, file) => DownloadFailsWith(url, file, err)
    case RepositoryInit => GitInitFailsWith(err)
    case RemoteIntegration(repo, _) => GitHubFailsWith(repo, err)
  }

  /** One step of `main`. */
  function RunStep(env: Env, s: Step, w: World): (o: Outcome<()>)
    ensures w.trace <= o.world.trace
    ensures forall e | e in Since(w, o.world) :: Emits(env, s, e)
    ensures o.result.Err? ==> FailsWith(s, o.result.error)
  {
    match s
    case MakeProjectDir(p) => CreateProjectDir(env, w, p)
    case IdentityCheck(key) => IdentityProvenance(env, w, key); CheckGitConfig(env, w, key)
    case UvCheck => CheckUvInstallation(env, w)
    case EnterDir(p) => EnterProjectDir(env, w, p)
    case EnvironmentInit => SetupEnvironment(env, w)
    case ManifestWrite(setup) => RequirementsShape(env, w, setup); CreateRequirementsFile(env, w, setup)
    case AssetDownload(url, file) => DownloadAndWriteFile(env, w, url, file)
    case RepositoryInit => GitInitShape(env, w); InitializeGitRepo(env, w)
    case RemoteIntegration(repo, private) =>
      var o := GitHubIntegration(env, w, repo, private);
      match o.result
      case Ok(_) => Outcome(o.world, Ok(()))
      case Err(err) => Outcome(o.world, Err(err))
  }

  /** `SinceAppend`, read as membership: every effect the trace gained between
      `a` and `c` was gained between `a` and `b` or between `b` and `c`. */
  lemma SinceSplit(a: World, b: World, c: World, e: Effect)
    requires a.trace <= b.trace <= c.trace
    requires e in Since(a, c)
    ensures e in Since(a, b) || e in Since(b, c)
  {
    SinceAppend(a, b, c);
  }

  /** A sequence of `?`-chained steps: run them in order, stop at the first failure. */
  function RunSteps(env: Env, steps: seq<Step>, w: World): (o: Outcome<()>)
    decreases |steps|
    ensures w.trace <= o.world.trace
    ensures forall e | e in Since(w, o.world) :: exists s :: s in steps && Emits(env, s, e)
    ensures o.result.Err? ==> exists s :: s in steps && FailsWith(s, o.result.error)
  {
    if steps == [] then Outcome(w, Ok(()))
    else
      var first := RunStep(env, steps[0], w);
      if first.result.Err? then first
      else
        var rest := RunSteps(env, steps[1..], first.world);
        assert forall e | e in Since(w, rest.world) :: e in Since(w, first.world) || e in Since(first.world, rest.world) by {
          forall e | e in Since(w, rest.world) {
            SinceSplit(w, first.world, rest.world, e);
          }
        }
        rest
  }

  /** The whole program: fail at once, touching nothing, if the project path
      exists; otherwise run the plan. */
  function Bootstrap(args: Args, env: Env): (o: Outcome<()>)
    ensures env.pathExists ==> o.world.trace == [] && o.result == Err(DirectoryExists(args.name))
    ensures !env.pathExists ==> |o.world.trace| > 0 && o.world.trace[0] == CreateDir(args.name)
    ensures forall e | e in o.world.trace :: exists s :: s in Plan(args) && Emits(env, s, e)
  {
    if env.pathExists then Outcome(Start(env), Err(DirectoryExists(args.name)))
    else
      var o := RunSteps(env, Plan(args), Start(env));
      assert Since(Start(env), o.world) == o.world.trace;
      assert Plan(args)[0] == MakeProjectDir(args.name);
      o
  }

  // ---------------------------------------------------------------- how `?` composes

  /** Running `a + b` runs `a`, and runs `b` only if `a` succeeded. */
  lemma {:induction false} RunStepsAppend(env: Env, a: seq<Step>, b: seq<Step>, w: World)
    ensures RunSteps(env, a + b, w)
         == (var p := RunSteps(env, a, w); if p.result.Err? then p else RunSteps(env, b, p.world))
  {
    if a == [] {
      assert a + b == b;
    } else {
      assert (a + b)[0] == a[0];
      assert (a + b)[1..] == a[1..] + b;
      var first := RunStep(env, a[0], w);
      if first.result.Ok? {
        RunStepsAppend(env, a[1..], b, first.world);
      }
    }
  }

  /** First failure ends the run: a failed run is a successful run of some
      prefix followed by the failing step, and nothing after it; in a successful
      run every step succeeded. */
  lemma {:induction false} ShortCircuit(env: Env, steps: seq<Step>, w: World)
    ensures var o := RunSteps(env, steps, w);
      o.result.Err? ==>
        exists k :: 0 <= k < |steps|
          && RunSteps(env, steps[..k], w).result.Ok?
          && o == RunStep(env, steps[k], RunSteps(env, steps[..k], w).world)
    ensures var o := RunSteps(env, steps, w);
      o.result.Ok? ==>
        forall k :: 0 <= k < |steps| ==> RunStep(env, steps[k], RunSteps(env, steps[..k], w).world).result.Ok?
  {
    var o := RunSteps(env, steps, w);
    if o.result.Err? {
      assert steps != [];
      var first := RunStep(env, steps[0], w);
      assert steps[..0] == [];
      if first.result.Err? {
        assert o == RunStep(env, steps[0], RunSteps(env, steps[..0], w).world);
      } else {
        ShortCircuit(env, steps[1..], first.world);
        var k' :| 0 <= k' < |steps[1..]|
          && RunSteps(env, steps[1..][..k'], first.world).result.Ok?
          && o == RunStep(env, steps[1..][k'], RunSteps(env, steps[1..][..k'], first.world).world);
        var k := k' + 1;
        PrefixCons(env, steps, k', w);
        assert steps[k] == steps[1..][k'];
      }
    } else {
      forall k | 0 <= k < |steps|
        ensures RunStep(env, steps[k], RunSteps(env, steps[..k], w).world).result.Ok?
      {
        assert steps == steps[..k] + steps[k..];
        RunStepsAppend(env, steps[..k], steps[k..], w);
        assert steps[k..][0] == steps[k];
      }
    }
  }

  /** Running the first `k + 1` steps is running the first step, then `k` more. */
  lemma PrefixCons(env: Env, steps: seq<Step>, k: nat, w: World)
    requires k < |steps| - 1
    ensures RunSteps(env, steps[..k + 1], w)
         == (var q := RunStep(env, steps[0], w); if q.result.Err? then q else RunSteps(env, steps[1..][..k], q.world))
  {
    assert steps[..k + 1] == [steps[0]] + steps[1..][..k];
    RunStepsCons(env, steps[0], steps[1..][..k], w);
  }

  /** Running `[s] + b` runs `s`, then `b` if `s` succeeded. */
  lemma RunStepsCons(env: Env, s: Step, b: seq<Step>, w: World)
    ensures RunSteps(env, [s] + b, w)
         == (var q := RunStep(env, s, w); if q.result.Err? then q else RunSteps(env, b, q.world))
  {
    assert ([s] + b)[0] == s;
    assert ([s] + b)[1..] == b;
  }

  /** Steps none of which can add `e` do not add it. */
  lemma NotEmitted(env: Env, steps: seq<Step>, w: World, e: Effect)
    requires forall t | t in steps :: !Emits(env, t, e)
    ensures e !in Since(w, RunSteps(env, steps, w).world)
  {
  }

  /** Steps none of which can end with `err` do not end with it. */
  lemma NotFailedWith(env: Env, steps: seq<Step>, w: World, err: Error)
    requires forall t | t in steps :: !FailsWith(t, err)
    ensures RunSteps(env, steps, w).result != Err(err)
  {
  }

  /** Running `a + [s] + b` runs `a`, then `s` if `a` succeeded, then `b` if
      `s` succeeded too. */
  lemma RunStepsSplit(env: Env, a: seq<Step>, s: Step, b: seq<Step>, w: World)
    ensures var p := RunSteps(env, a, w);
      var q := RunStep(env, s, p.world);
      RunSteps(env, a + [s] + b, w)
        == (if p.result.Err? then p else if q.result.Err? then q else RunSteps(env, b, q.world))
  {
    assert a + [s] + b == a + ([s] + b);
    RunStepsAppend(env, a, [s] + b, w);
    RunStepsCons(env, s, b, RunSteps(env, a, w).world);
  }

  /** An effect that only step `s` can add, found in the trace of `a + [s] + b`,
      means the run got through `a`, `s` added the effect, and the run then went
      on exactly as `s`'s outcome dictates. */
  lemma {:induction false} Reached(env: Env, a: seq<Step>, s: Step, b: seq<Step>, w: World, e: Effect)
    requires e in Since(w, RunSteps(env, a + [s] + b, w).world)
    requires forall t | t in a :: !Emits(env, t, e)
    requires forall t | t in b :: !Emits(env, t, e)
    ensures RunSteps(env, a, w).result.Ok?
    ensures var p := RunSteps(env, a, w);
      var q := RunStep(env, s, p.world);
      && e in Since(p.world, q.world)
      && RunSteps(env, a + [s] + b, w) == (if q.result.Err? then q else RunSteps(env, b, q.world))
  {
    var p := RunSteps(env, a, w);
    RunStepsSplit(env, a, s, b, w);
    NotEmitted(env, a, w, e);
    if p.result.Ok? {
      ReachedStep(env, p.world, s, b, e);
    }
  }

  /** The part of `Reached` after `a`: the effect was not added by `b`, so `s`
      added it. */
  lemma ReachedStep(env: Env, p: World, s: Step, b: seq<Step>, e: Effect)
    requires forall t | t in b :: !Emits(env, t, e)
    requires var q := RunStep(env, s, p);
      e in Since(p, (if q.result.Err? then q else RunSteps(env, b, q.world)).world)
    ensures e in Since(p, RunStep(env, s, p).world)
  {
    var q := RunStep(env, s, p);
    if q.result.Ok? {
      var o := RunSteps(env, b, q.world);
      NotEmitted(env, b, q.world, e);
      SinceSplit(p, q.world, o.world, e);
    }
  }

  /** An error that only step `s` can end with means the run got through `a`
      and stopped at `s`. */
  lemma {:induction false} FailedAt(env: Env, a: seq<Step>, s: Step, b: seq<Step>, w: World, err: Error)
    requires RunSteps(env, a + [s] + b, w).result == Err(err)
    requires forall t | t in a :: !FailsWith(t, err)
    requires forall t | t in b :: !FailsWith(t, err)
    ensures RunSteps(env, a, w).result.Ok?
    ensures RunSteps(env, a + [s] + b, w) == RunStep(env, s, RunSteps(env, a, w).world)
  {
    var p := RunSteps(env, a, w);
    RunStepsSplit(env, a, s, b, w);
    NotFailedWith(env, a, w, err);
    NotFailedWith(env, b, RunStep(env, s, p.world).world, err);
  }

  /** Once `a` succeeded, running `a + [s] + b` goes on with `s`, then `b` if
      `s` succeeded. */
  lemma ContinueAfter(env: Env, a: seq<Step>, s: Step, b: seq<Step>, w: World)
    requires RunSteps(env, a, w).result.Ok?
    ensures var q := RunStep(env, s, RunSteps(env, a, w).world);
      RunSteps(env, a + [s] + b, w) == (if q.result.Err? then q else RunSteps(env, b, q.world))
  {
    assert a + [s] + b == a + ([s] + b);
    RunStepsAppend(env, a, [s] + b, w);
    RunStepsCons(env, s, b, RunSteps(env, a, w).world);
  }

  /** A successful run of `a + [t]` ran `a` successfully and then `t`. */
  lemma LastStepOk(env: Env, a: seq<Step>, t: Step, w: World)
    requires RunSteps(env, a + [t], w).result.Ok?
    ensures RunSteps(env, a, w).result.Ok?
    ensures var q := RunStep(env, t, RunSteps(env, a, w).world);
      q.result.Ok? && RunSteps(env, a + [t], w).world == q.world
  {
    RunStepsAppend(env, a, [t], w);
    RunStepsCons(env, t, [], RunSteps(env, a, w).world);
  }

  /** What each kind of step runs. */
  lemma StepBody(env: Env, s: Step, w: World)
    ensures s.UvCheck? ==> RunStep(env, s, w) == CheckUvInstallation(env, w)
    ensures s.IdentityCheck? ==> RunStep(env, s, w) == CheckGitConfig(env, w, s.key)
    ensures s.EnvironmentInit? ==> RunStep(env, s, w) == SetupEnvironment(env, w)
    ensures s.ManifestWrite? ==> RunStep(env, s, w) == CreateRequirementsFile(env, w, s.setup)
    ensures s.AssetDownload? ==> RunStep(env, s, w) == DownloadAndWriteFile(env, w, s.url, s.file)
    ensures s.RepositoryInit? ==> RunStep(env, s, w) == InitializeGitRepo(env, w)
    ensures s.RemoteIntegration? ==>
      var o := GitHubIntegration(env, w, s.repo, s.private);
      RunStep(env, s, w).world == o.world && (RunStep(env, s, w).result.Ok? <==> o.result.Ok?)
      && (o.result.Err? ==> RunStep(env, s, w).result == Err(o.result.error))
  {
  }

  /** A GitHub block whose API call failed fails with that call as its last effect. */
  lemma RemoteFailureLast(env: Env, w: World, repo: string, private: bool)
    requires env.token.Some? && !ApiOk(env, repo, private)
    ensures var q := RunStep(env, RemoteIntegration(repo, private), w);
      && q.world.trace == w.trace + [CreateRepo(repo, private)]
      && (env.createRepo(repo, private).NoResponse? ==> q.result == Err(ApiUnreachable))
      && (env.createRepo(repo, private).Response? ==>
            q.result == Err(GitHubApi(env.createRepo(repo, private).body.GetOr(""))))
  {
    StepBody(env, RemoteIntegration(repo, private), w);
    var o := GitHubIntegration(env, w, repo, private);
    SinceRebuild(w, o.world);
  }
}

=== FILE: properties.dfy ===
/** What a whole run of `main` guarantees about its local steps, stated over
    its trace: from the existence check to the first commit. */
module Properties {
  import opened Text
  import opened Effects
  import opened Steps
  import opened Pipeline
  import opened Provenance

  // ---------------------------------------------------------------- the existence check

  /** The run reports an existing directory exactly when the path exists, and
      then it has done nothing at all. */
  lemma ExistingDirectoryOnly(args: Args, env: Env)
    ensures Bootstrap(args, env).result == Err(DirectoryExists(args.name)) <==> env.pathExists
    ensures env.pathExists ==> Trace(args, env) == []
  {
    if !env.pathExists {
      var err := DirectoryExists(args.name);
      assert forall t | t in Plan(args) :: !FailsWith(t, err) by {
        forall t | t in Plan(args) ensures !FailsWith(t, err) {
          NoStepFindsDirectory(t, args.name);
        }
      }
      NotFailedWith(env, Plan(args), Start(env), err);
      RunsPlan(args, env, Plan(args));
    }
  }

  /** No step of the plan reports an existing directory. */
  lemma NoStepFindsDirectory(t: Step, path: string)
    ensures !FailsWith(t, DirectoryExists(path))
  {
  }

  // ---------------------------------------------------------------- git identity

  /** Standard input is read only for an identity key git reports unset. */
  lemma ReadsOnlyWhenUnset(args: Args, env: Env)
    requires ReadLine in Trace(args, env)
    ensures Unset(env, "user.name") || Unset(env, "user.email")
  {
    var t := Emitter(args, env, ReadLine);
    OnlyIdentityReads(env, t);
    PlanMembers(args, t);
  }

  /** The effects of the identity check for `key`: its probe and its global write. */
  ghost predicate IsIdentityEffect(e: Effect, key: string) {
    e == Exec(GitConfigGet(key)) || (e.Exec? && IsConfigSet(e.command, key))
  }

  /** The identity check for `key` is the only step of the plan that probes or
      sets `key`. */
  lemma IdentityEmitters(args: Args, env: Env, key: string, e: Effect)
    requires IsIdentityEffect(e, key)
    ensures forall t | t in Plan(args) && Emits(env, t, e) :: t == IdentityCheck(key)
  {
    forall t | t in Plan(args) && Emits(env, t, e) ensures t == IdentityCheck(key) {
      OnlyIdentity(env, t, key, e);
    }
  }

  /** What the world holds after creating the directory: all of standard input. */
  lemma InputAfterDirectory(env: Env, n: string)
    requires RunSteps(env, [MakeProjectDir(n)], Start(env)).result.Ok?
    ensures RunSteps(env, [MakeProjectDir(n)], Start(env)).world.stdin == env.stdin
  {
    assert [] + [MakeProjectDir(n)] == [MakeProjectDir(n)];
    LastStepOk(env, [], MakeProjectDir(n), Start(env));
  }

  /** What the world holds after the `user.name` check: the input but the line
      it took, if it took one. */
  lemma InputAfterName(env: Env, n: string)
    requires RunSteps(env, [MakeProjectDir(n), IdentityCheck("user.name")], Start(env)).result.Ok?
    ensures RunSteps(env, [MakeProjectDir(n), IdentityCheck("user.name")], Start(env)).world.stdin
         == if Unset(env, "user.name") then RestLines(env.stdin) else env.stdin
  {
    var w := Start(env);
    assert [MakeProjectDir(n), IdentityCheck("user.name")] == [MakeProjectDir(n)] + [IdentityCheck("user.name")];
    LastStepOk(env, [MakeProjectDir(n)], IdentityCheck("user.name"), w);
    InputAfterDirectory(env, n);
    StepBody(env, IdentityCheck("user.name"), RunSteps(env, [MakeProjectDir(n)], w).world);
  }

  /** The plan around the `user.name` check. */
  lemma NameSplit(args: Args) returns (b: seq<Step>)
    ensures Plan(args) == [MakeProjectDir(args.name)] + [IdentityCheck("user.name")] + b
    ensures IdentityCheck("user.name") !in [MakeProjectDir(args.name)] + b
  {
    b := LocalPlan(args)[2..] + RemotePlan(args);
  }

  /** Where an effect of the `user.name` check shows up in the trace, the check
      ran in a world `p` with all of standard input unread. */
  lemma LocateName(args: Args, env: Env, e: Effect) returns (p: World)
    requires IsIdentityEffect(e, "user.name")
    requires e in Trace(args, env)
    ensures p.stdin == env.stdin
    ensures var q := CheckGitConfig(env, p, "user.name");
      && p.trace <= q.world.trace <= Trace(args, env)
      && e in Since(p, q.world)
  {
    var n := args.name;
    var a := [MakeProjectDir(n)];
    var s := IdentityCheck("user.name");
    var b := NameSplit(args);
    IdentityEmitters(args, env, "user.name", e);
    p := LocateUnique(args, env, a, s, b, e);
    StepBody(env, s, p);
    InputAfterDirectory(env, n);
  }

  /** The plan around the `user.email` check. */
  lemma EmailSplit(args: Args) returns (b: seq<Step>)
    ensures Plan(args) == [MakeProjectDir(args.name), IdentityCheck("user.name")] + [IdentityCheck("user.email")] + b
    ensures IdentityCheck("user.email") !in [MakeProjectDir(args.name), IdentityCheck("user.name")] + b
  {
    b := LocalPlan(args)[3..] + RemotePlan(args);
  }

  /** Where an effect of the `user.email` check shows up in the trace, the check
      ran in a world `p` missing only the line `user.name` took, if any. */
  lemma LocateEmail(args: Args, env: Env, e: Effect) returns (p: World)
    requires IsIdentityEffect(e, "user.email")
    requires e in Trace(args, env)
    ensures p.stdin == if Unset(env, "user.name") then RestLines(env.stdin) else env.stdin
    ensures var q := CheckGitConfig(env, p, "user.email");
      && p.trace <= q.world.trace <= Trace(args, env)
      && e in Since(p, q.world)
  {
    var n := args.name;
    var a := [MakeProjectDir(n), IdentityCheck("user.name")];
    var s := IdentityCheck("user.email");
    var b := EmailSplit(args);
    IdentityEmitters(args, env, "user.email", e);
    p := LocateUnique(args, env, a, s, b, e);
    StepBody(env, s, p);
    InputAfterName(env, n);
  }

  /** `user.name` is written only when git reports it unset, and the value is
      the first line of standard input, trimmed. */
  lemma NameFromFirstLine(args: Args, env: Env, c: Command)
    requires Exec(c) in Trace(args, env)
    requires IsConfigSet(c, "user.name")
    ensures Unset(env, "user.name")
    ensures c == GitConfigSet("user.name", Trim(NextLine(env.stdin)))
  {
    var p := LocateName(args, env, Exec(c));
    StoredValue(env, p, "user.name", c);
  }

  /** `user.email` is written only when git reports it unset, and the value is
      the next line of standard input not taken by `user.name`, trimmed. */
  lemma EmailFromNextLine(args: Args, env: Env, c: Command)
    requires Exec(c) in Trace(args, env)
    requires IsConfigSet(c, "user.email")
    ensures Unset(env, "user.email")
    ensures c == GitConfigSet("user.email",
      Trim(NextLine(if Unset(env, "user.name") then RestLines(env.stdin) else env.stdin)))
  {
    var p := LocateEmail(args, env, Exec(c));
    StoredValue(env, p, "user.email", c);
  }

  /** An unset `user.name` is always prompted for and written. */
  lemma UnsetNameIsWritten(args: Args, env: Env)
    requires Exec(GitConfigGet("user.name")) in Trace(args, env)
    requires Unset(env, "user.name")
    ensures ReadLine in Trace(args, env)
    ensures Exec(GitConfigSet("user.name", Trim(NextLine(env.stdin)))) in Trace(args, env)
  {
    var p := LocateName(args, env, Exec(GitConfigGet("user.name")));
    var q := CheckGitConfig(env, p, "user.name");
    PromptsExactlyWhenUnset(env, p, "user.name");
    SinceWithin(p, q.world, Trace(args, env), ReadLine);
    SinceWithin(p, q.world, Trace(args, env), Exec(GitConfigSet("user.name", Trim(NextLine(p.stdin)))));
  }

  /** An unset `user.email` is always prompted for and written. */
  lemma UnsetEmailIsWritten(args: Args, env: Env)
    requires Exec(GitConfigGet("user.email")) in Trace(args, env)
    requires Unset(env, "user.email")
    ensures ReadLine in Trace(args, env)
    ensures exists v :: Exec(GitConfigSet("user.email", v)) in Trace(args, env)
  {
    var p := LocateEmail(args, env, Exec(GitConfigGet("user.email")));
    var q := CheckGitConfig(env, p, "user.email");
    PromptsExactlyWhenUnset(env, p, "user.email");
    SinceWithin(p, q.world, Trace(args, env), ReadLine);
    SinceWithin(p, q.world, Trace(args, env), Exec(GitConfigSet("user.email", Trim(NextLine(p.stdin)))));
  }

  // ---------------------------------------------------------------- uv

  /** The plan around the uv check. */
  lemma UvSplit(args: Args) returns (b: seq<Step>)
    ensures Plan(args) == [MakeProjectDir(args.name), IdentityCheck("user.name"), IdentityCheck("user.email")] + [UvCheck] + b
    ensures UvCheck !in [MakeProjectDir(args.name), IdentityCheck("user.name"), IdentityCheck("user.email")] + b
  {
    b := LocalPlan(args)[4..] + RemotePlan(args);
  }

  /** Where `uv --version` or `pip install uv` shows up in the trace, the uv
      check ran in the world `p` the earlier steps left. */
  lemma LocateUv(args: Args, env: Env, e: Effect) returns (p: World)
    requires e == Exec(UvVersion) || e == Exec(PipInstallUv)
    requires e in Trace(args, env)
    ensures var q := CheckUvInstallation(env, p);
      && p.trace <= q.world.trace <= Trace(args, env)
      && e in Since(p, q.world)
  {
    var n := args.name;
    var a := [MakeProjectDir(n), IdentityCheck("user.name"), IdentityCheck("user.email")];
    var b := UvSplit(args);
    forall t | t in Plan(args) && Emits(env, t, e) ensures t == UvCheck {
      OnlyUvCheck(env, t, e);
    }
    p := LocateUnique(args, env, a, UvCheck, b, e);
    StepBody(env, UvCheck, p);
  }

  /** `pip install uv` runs only right after `uv --version` failed. */
  lemma PipOnlyAfterFailedProbe(args: Args, env: Env)
    requires Exec(PipInstallUv) in Trace(args, env)
    ensures !Succeeds(env, UvVersion)
    ensures exists i ::
      && 0 < i < |Trace(args, env)|
      && Trace(args, env)[i - 1] == Exec(UvVersion)
      && Trace(args, env)[i] == Exec(PipInstallUv)
  {
    var p := LocateUv(args, env, Exec(PipInstallUv));
    var q := CheckUvInstallation(env, p);
    var i := |p.trace| + 1;
    assert q.world.trace[i - 1] == Exec(UvVersion) && q.world.trace[i] == Exec(PipInstallUv);
  }

  /** Once `uv --version` has run, `pip install uv` runs exactly when it failed. */
  lemma UvFallback(args: Args, env: Env)
    requires Exec(UvVersion) in Trace(args, env)
    ensures Exec(PipInstallUv) in Trace(args, env) <==> !Succeeds(env, UvVersion)
  {
    if Exec(PipInstallUv) in Trace(args, env) {
      PipOnlyAfterFailedProbe(args, env);
    }
    if !Succeeds(env, UvVersion) {
      var p := LocateUv(args, env, Exec(UvVersion));
      var q := CheckUvInstallation(env, p);
      assert Exec(PipInstallUv) in Since(p, q.world);
    }
  }

  // ---------------------------------------------------------------- requirements

  /** requirements.txt only ever receives the template of the chosen setup,
      verbatim, and only for one of the four known setups. */
  lemma RequirementsAreTemplate(args: Args, env: Env, c: string)
    requires WriteFile(RequirementsFile, c) in Trace(args, env)
    ensures args.setup in KnownSetups
    ensures Template(env.templates, args.setup) == Some(c)
    ensures args.setup == "basic" ==> c == env.templates.basic
    ensures args.setup == "advanced" ==> c == env.templates.advanced
    ensures args.setup == "data-science" ==> c == env.templates.dataScience
    ensures args.setup == "blank" ==> c == ""
  {
    var t := Emitter(args, env, WriteFile(RequirementsFile, c));
    OnlyManifestWritesRequirements(env, t, c);
    PlanMembers(args, t);
  }

  /** With the blank setup neither `uv add -r requirements.txt` nor `uv sync` ever runs. */
  lemma BlankSkipsInstall(args: Args, env: Env)
    requires args.setup == "blank"
    ensures Exec(UvAdd) !in Trace(args, env)
    ensures Exec(UvSync) !in Trace(args, env)
  {
    forall e | e == Exec(UvAdd) || e == Exec(UvSync)
      ensures e !in Trace(args, env)
    {
      if e in Trace(args, env) {
        var t := Emitter(args, env, e);
        OnlyManifestInstalls(env, t, e);
        PlanMembers(args, t);
      }
    }
  }

  /** Where `uv add` or `uv sync` shows up in the trace, writing the manifest
      ran in the world `p` the earlier steps left, and added it. */
  lemma LocateInstall(args: Args, env: Env, e: Effect) returns (p: World)
    requires e == Exec(UvAdd) || e == Exec(UvSync)
    requires e in Trace(args, env)
    ensures var q := CreateRequirementsFile(env, p, args.setup);
      && p.trace <= q.world.trace <= Trace(args, env)
      && e in Since(p, q.world)
  {
    var a := BeforeManifest(args);
    var s := ManifestWrite(args.setup);
    var b := AfterManifest(args);
    ManifestSplit(args);
    assert forall t | t in a + b :: !Emits(env, t, e) by {
      forall t | t in a + b ensures !Emits(env, t, e) {
        if Emits(env, t, e) {
          OnlyManifestInstalls(env, t, e);
        }
      }
    }
    p := Locate(args, env, a, s, b, e);
    StepBody(env, s, p);
  }

  /** `uv sync` runs only for a known, non-blank setup, right after a
      successful `uv add -r requirements.txt`. */
  lemma SyncFollowsAdd(args: Args, env: Env)
    requires Exec(UvSync) in Trace(args, env)
    ensures args.setup in KnownSetups && args.setup != "blank"
    ensures Succeeds(env, UvAdd)
    ensures exists i ::
      && 0 < i < |Trace(args, env)|
      && Trace(args, env)[i - 1] == Exec(UvAdd)
      && Trace(args, env)[i] == Exec(UvSync)
  {
    var p := LocateInstall(args, env, Exec(UvSync));
    var q := CreateRequirementsFile(env, p, args.setup);
    SyncAfterAdd(env, p, args.setup);
    var i := |p.trace| + 2;
    assert q.world.trace[i - 1] == Exec(UvAdd) && q.world.trace[i] == Exec(UvSync);
  }

  /** An unknown setup name is rejected only once the environment exists: the
      run fails, requirements.txt is never written, and the rejection is the error
      exactly when the directory was created and entered and `uv init .` and
      `uv venv .venv` ran and succeeded. */
  lemma InvalidSetupFailsLate(args: Args, env: Env)
    requires args.setup !in KnownSetups
    ensures Bootstrap(args, env).result.Err?
    ensures forall c :: WriteFile(RequirementsFile, c) !in Trace(args, env)
    ensures Bootstrap(args, env).result == Err(InvalidSetup(args.setup))
        <==> && env.createDirOk && env.chdirOk && Succeeds(env, UvInit)
             && Exec(UvVenv) in Trace(args, env) && Succeeds(env, UvVenv)
  {
    if Bootstrap(args, env).result.Ok? {
      var w := StepOkAt(args, env, 6);
      StepBody(env, Plan(args)[6], w);
    }
    forall c ensures WriteFile(RequirementsFile, c) !in Trace(args, env) {
      if WriteFile(RequirementsFile, c) in Trace(args, env) {
        RequirementsAreTemplate(args, env, c);
      }
    }
    if Bootstrap(args, env).result == Err(InvalidSetup(args.setup)) {
      RejectedAfterVenv(args, env);
    }
    if Exec(UvVenv) in Trace(args, env) && Succeeds(env, UvVenv) {
      VenvThenRejected(args, env);
    }
  }

  /** The steps before writing the manifest, written out. */
  function BeforeManifest(args: Args): seq<Step> {
    [MakeProjectDir(args.name), IdentityCheck("user.name"), IdentityCheck("user.email"), UvCheck,
     EnterDir(args.name), EnvironmentInit]
  }

  /** The steps after writing the manifest, written out. */
  function AfterManifest(args: Args): seq<Step> {
    [AssetDownload(GitignoreUrl, ".gitignore"), AssetDownload(LicenseUrl, "LICENSE"), RepositoryInit]
      + RemotePlan(args)
  }

  /** The plan around writing the manifest. */
  lemma ManifestSplit(args: Args)
    ensures Plan(args) == BeforeManifest(args) + [ManifestWrite(args.setup)] + AfterManifest(args)
  {
  }

  /** The plan around creating the environment. */
  lemma VenvSplit(args: Args)
    ensures Plan(args) == BeforeManifest(args)[..5] + [EnvironmentInit] + ([ManifestWrite(args.setup)] + AfterManifest(args))
    ensures EnvironmentInit !in BeforeManifest(args)[..5] + ([ManifestWrite(args.setup)] + AfterManifest(args))
  {
  }

  /** A run rejected for its setup name had created the environment. */
  lemma RejectedAfterVenv(args: Args, env: Env)
    requires Bootstrap(args, env).result == Err(InvalidSetup(args.setup))
    ensures args.setup !in KnownSetups
    ensures env.createDirOk && env.chdirOk && Succeeds(env, UvInit)
    ensures Exec(UvVenv) in Trace(args, env) && Succeeds(env, UvVenv)
  {
    var err := InvalidSetup(args.setup);
    var s := ManifestWrite(args.setup);
    var a := BeforeManifest(args);
    var b := AfterManifest(args);
    ManifestSplit(args);
    forall t | t in a + b ensures !FailsWith(t, err) {
      if FailsWith(t, err) {
        OnlyManifestRejects(t, args.setup);
      }
    }
    var p := LocateFailure(args, env, a, s, b, err);
    StepBody(env, s, p);
    EnvironmentCreated(args, env);
    OpeningSucceeded(args, env);
  }

  /** A run that got through the steps before the manifest ran `uv venv .venv`
      successfully. */
  lemma EnvironmentCreated(args: Args, env: Env)
    requires RunSteps(env, BeforeManifest(args), Start(env)).result.Ok?
    ensures Exec(UvVenv) in RunSteps(env, BeforeManifest(args), Start(env)).world.trace
    ensures Succeeds(env, UvInit) && Succeeds(env, UvVenv)
  {
    var a := BeforeManifest(args);
    var a5 := a[..5];
    assert a == a5 + [EnvironmentInit];
    LastStepOk(env, a5, EnvironmentInit, Start(env));
    var w5 := RunSteps(env, a5, Start(env)).world;
    StepBody(env, EnvironmentInit, w5);
    var q := SetupEnvironment(env, w5);
    assert Exec(UvVenv) in Since(w5, q.world);
  }

  /** A run that got through the steps before the manifest had created and
      entered the project directory. */
  lemma OpeningSucceeded(args: Args, env: Env)
    requires RunSteps(env, BeforeManifest(args), Start(env)).result.Ok?
    ensures env.createDirOk && env.chdirOk
  {
    var a := BeforeManifest(args);
    ShortCircuit(env, a, Start(env));
    DirectorySteps(env, args.name, RunSteps(env, a[..0], Start(env)).world, RunSteps(env, a[..4], Start(env)).world);
  }

  /** Creating and entering the directory succeed only when the file system
      allows them. */
  lemma DirectorySteps(env: Env, path: string, w: World, w': World)
    requires RunStep(env, MakeProjectDir(path), w).result.Ok?
    requires RunStep(env, EnterDir(path), w').result.Ok?
    ensures env.createDirOk && env.chdirOk
  {
  }

  /** A run that got `uv venv .venv` through rejects an unknown setup next. */
  lemma VenvThenRejected(args: Args, env: Env)
    requires args.setup !in KnownSetups
    requires Exec(UvVenv) in Trace(args, env) && Succeeds(env, UvVenv)
    ensures Bootstrap(args, env).result == Err(InvalidSetup(args.setup))
  {
    var e := Exec(UvVenv);
    var a := BeforeManifest(args)[..5];
    var b := [ManifestWrite(args.setup)] + AfterManifest(args);
    forall t | t in Plan(args) && Emits(env, t, e) ensures t == EnvironmentInit {
      OnlyEnvironmentInit(env, t, e);
    }
    VenvSplit(args);
    var p := LocateUnique(args, env, a, EnvironmentInit, b, e);
    StepBody(env, EnvironmentInit, p);
    var q := SetupEnvironment(env, p);
    PathAbsent(args, env, e);
    Continue(args, env, a, EnvironmentInit, b, p);
    RunStepsCons(env, ManifestWrite(args.setup), AfterManifest(args), q.world);
    StepBody(env, ManifestWrite(args.setup), q.world);
  }

  // ---------------------------------------------------------------- downloads

  /** A run that got through the .gitignore download fetched it successfully. */
  lemma GitignoreFetched(args: Args, env: Env, a: seq<Step>)
    requires a == ThroughGitignore(args)
    requires RunSteps(env, a, Start(env)).result.Ok?
    ensures FetchOk(env, GitignoreUrl)
  {
    var t := AssetDownload(GitignoreUrl, ".gitignore");
    var a7 := BeforeManifest(args) + [ManifestWrite(args.setup)];
    assert a == a7 + [t];
    LastStepOk(env, a7, t, Start(env));
    StepBody(env, t, RunSteps(env, a7, Start(env)).world);
  }

  /** The steps up to and including the .gitignore download, written out. */
  function ThroughGitignore(args: Args): seq<Step> {
    BeforeManifest(args) + [ManifestWrite(args.setup), AssetDownload(GitignoreUrl, ".gitignore")]
  }

  /** The plan around the LICENSE download. */
  lemma LicenseSplit(args: Args)
    ensures Plan(args) == ThroughGitignore(args) + [AssetDownload(LicenseUrl, "LICENSE")] + ([RepositoryInit] + RemotePlan(args))
    ensures AssetDownload(LicenseUrl, "LICENSE") !in ThroughGitignore(args) + ([RepositoryInit] + RemotePlan(args))
  {
  }

  /** The plan around initialising git. */
  lemma GitInitSplit(args: Args)
    ensures Plan(args) == (ThroughGitignore(args) + [AssetDownload(LicenseUrl, "LICENSE")]) + [RepositoryInit] + RemotePlan(args)
    ensures RepositoryInit !in (ThroughGitignore(args) + [AssetDownload(LicenseUrl, "LICENSE")]) + RemotePlan(args)
  {
  }

  /** The LICENSE is fetched only after the .gitignore was. */
  lemma LicenseAfterGitignore(args: Args, env: Env)
    requires Fetch(LicenseUrl) in Trace(args, env)
    ensures FetchOk(env, GitignoreUrl)
  {
    var e := Fetch(LicenseUrl);
    var lic := AssetDownload(LicenseUrl, "LICENSE");
    var a8 := ThroughGitignore(args);
    forall t | t in Plan(args) && Emits(env, t, e) ensures t == lic {
      OnlyDownloadFetches(env, t, LicenseUrl);
      PlanMembers(args, t);
    }
    LicenseSplit(args);
    var p := LocateUnique(args, env, a8, lic, [RepositoryInit] + RemotePlan(args), e);
    GitignoreFetched(args, env, a8);
  }

  /** git is initialised only after the .gitignore was fetched. */
  lemma GitInitAfterGitignore(args: Args, env: Env)
    requires Exec(GitInit) in Trace(args, env)
    ensures FetchOk(env, GitignoreUrl)
  {
    var e := Exec(GitInit);
    var lic := AssetDownload(LicenseUrl, "LICENSE");
    var a8 := ThroughGitignore(args);
    forall t | t in Plan(args) && Emits(env, t, e) ensures t == RepositoryInit {
      OnlyRepositoryInit(env, t, e);
    }
    GitInitSplit(args);
    var p := LocateUnique(args, env, a8 + [lic], RepositoryInit, RemotePlan(args), e);
    LastStepOk(env, a8, lic, Start(env));
    GitignoreFetched(args, env, a8);
  }

  /** When the .gitignore cannot be fetched, the run fails there: the LICENSE is
      never fetched, git is never initialised and no .gitignore is written. */
  lemma GitignoreFailureStops(args: Args, env: Env)
    requires !FetchOk(env, GitignoreUrl)
    ensures Bootstrap(args, env).result.Err?
    ensures Fetch(LicenseUrl) !in Trace(args, env)
    ensures Exec(GitInit) !in Trace(args, env)
    ensures forall c :: WriteFile(".gitignore", c) !in Trace(args, env)
  {
    if Bootstrap(args, env).result.Ok? {
      var w := StepOkAt(args, env, 7);
      StepBody(env, Plan(args)[7], w);
    }
    if Fetch(LicenseUrl) in Trace(args, env) {
      LicenseAfterGitignore(args, env);
    }
    if Exec(GitInit) in Trace(args, env) {
      GitInitAfterGitignore(args, env);
    }
    forall c ensures WriteFile(".gitignore", c) !in Trace(args, env) {
      if WriteFile(".gitignore", c) in Trace(args, env) {
        var t := Emitter(args, env, WriteFile(".gitignore", c));
        OnlyDownloadWrites(env, t, ".gitignore", c);
        PlanMembers(args, t);
      }
    }
  }
}

=== FILE: provenance.dfy ===
/** Which step of `main` can add which effect, and how to find, from an effect
    in the trace, the world in which the step that added it ran. */
module Provenance {
  import opened Effects
  import opened Steps
  import opened Pipeline

  /** The effects of a complete run of `main`. */
  function Trace(args: Args, env: Env): seq<Effect> {
    Bootstrap(args, env).world.trace
  }

  /** The steps of the plan, listed. */
  lemma PlanMembers(args: Args, s: Step)
    ensures s in Plan(args) <==>
      || s == MakeProjectDir(args.name)
      || s == IdentityCheck("user.name")
      || s == IdentityCheck("user.email")
      || s == UvCheck
      || s == EnterDir(args.name)
      || s == EnvironmentInit
      || s == ManifestWrite(args.setup)
      || s == AssetDownload(GitignoreUrl, ".gitignore")
      || s == AssetDownload(LicenseUrl, "LICENSE")
      || s == RepositoryInit
      || (args.githubRepo && s == RemoteIntegration(RepoName(args), args.private))
  {
  }

  /** The GitHub block is in the plan only with `-g`, for the defaulted name. */
  lemma RemoteStepIs(args: Args, t: Step)
    requires t in Plan(args) && t.RemoteIntegration?
    ensures args.githubRepo && t == RemoteIntegration(RepoName(args), args.private)
  {
    assert t !in LocalPlan(args);
  }

  /** Every effect of the trace was added by some step of the plan. */
  lemma Emitter(args: Args, env: Env, e: Effect) returns (s: Step)
    requires e in Trace(args, env)
    ensures s in Plan(args) && Emits(env, s, e)
  {
    s :| s in Plan(args) && Emits(env, s, e);
  }

  /** A non-empty trace means the project path did not exist. */
  lemma PathAbsent(args: Args, env: Env, e: Effect)
    requires e in Trace(args, env)
    ensures !env.pathExists
  {
  }

  /** Past the existence check, the run is the plan's steps from the start. */
  lemma RunsPlan(args: Args, env: Env, steps: seq<Step>)
    requires Plan(args) == steps
    requires !env.pathExists
    ensures Bootstrap(args, env) == RunSteps(env, steps, Start(env))
    ensures Trace(args, env) == Since(Start(env), RunSteps(env, steps, Start(env)).world)
  {
  }

  /** An effect that only step `s` of the plan can add, found in the trace:
      the run got through the steps before `s` to the world `p`, `s` added the
      effect there, and the run went on as `s`'s outcome dictates. */
  lemma Locate(args: Args, env: Env, a: seq<Step>, s: Step, b: seq<Step>, e: Effect) returns (p: World)
    requires Plan(args) == a + [s] + b
    requires e in Trace(args, env)
    requires forall t | t in a :: !Emits(env, t, e)
    requires forall t | t in b :: !Emits(env, t, e)
    ensures !env.pathExists
    ensures RunSteps(env, a, Start(env)).result.Ok? && RunSteps(env, a, Start(env)).world == p
    ensures var q := RunStep(env, s, p);
      && p.trace <= q.world.trace <= Trace(args, env)
      && e in Since(p, q.world)
  {
    var w := Start(env);
    PathAbsent(args, env, e);
    RunsPlan(args, env, a + [s] + b);
    Reached(env, a, s, b, w, e);
    p := RunSteps(env, a, w).world;
    var q := RunStep(env, s, p);
    if q.result.Ok? {
      assert q.world.trace <= RunSteps(env, b, q.world).world.trace;
    }
  }

  /** `Locate` for an effect whose every emitter in the plan is `s`, which
      occurs in the plan once. */
  lemma LocateUnique(args: Args, env: Env, a: seq<Step>, s: Step, b: seq<Step>, e: Effect) returns (p: World)
    requires Plan(args) == a + [s] + b
    requires s !in a && s !in b
    requires forall t | t in Plan(args) && Emits(env, t, e) :: t == s
    requires e in Trace(args, env)
    ensures RunSteps(env, a, Start(env)).result.Ok? && RunSteps(env, a, Start(env)).world == p
    ensures var q := RunStep(env, s, p);
      && p.trace <= q.world.trace <= Trace(args, env)
      && e in Since(p, q.world)
  {
    assert forall t | t in a :: t in Plan(args);
    assert forall t | t in b :: t in Plan(args);
    p := Locate(args, env, a, s, b, e);
  }

  /** Once the steps before `s` succeeded, the run is `s` and, if `s`
      succeeded, the steps after it. */
  lemma Continue(args: Args, env: Env, a: seq<Step>, s: Step, b: seq<Step>, p: World)
    requires Plan(args) == a + [s] + b
    requires !env.pathExists
    requires RunSteps(env, a, Start(env)).result.Ok? && RunSteps(env, a, Start(env)).world == p
    ensures var q := RunStep(env, s, p);
      Bootstrap(args, env) == (if q.result.Err? then q else RunSteps(env, b, q.world))
  {
    RunsPlan(args, env, a + [s] + b);
    ContinueAfter(env, a, s, b, Start(env));
  }

  /** A run that ended with an error only step `s` can produce stopped at `s`,
      after the steps before it all succeeded. */
  lemma LocateFailure(args: Args, env: Env, a: seq<Step>, s: Step, b: seq<Step>, err: Error) returns (p: World)
    requires Plan(args) == a + [s] + b
    requires Bootstrap(args, env).result == Err(err)
    requires err != DirectoryExists(args.name)
    requires forall t | t in a :: !FailsWith(t, err)
    requires forall t | t in b :: !FailsWith(t, err)
    ensures !env.pathExists
    ensures RunSteps(env, a, Start(env)).result.Ok? && RunSteps(env, a, Start(env)).world == p
    ensures Bootstrap(args, env) == RunStep(env, s, p)
  {
    var w := Start(env);
    RunsPlan(args, env, a + [s] + b);
    FailedAt(env, a, s, b, w, err);
    p := RunSteps(env, a, w).world;
  }

  /** In a successful run, step `k` of the plan succeeded, in the world `w`
      the steps before it left. */
  lemma StepOkAt(args: Args, env: Env, k: nat) returns (w: World)
    requires Bootstrap(args, env).result.Ok?
    requires k < |Plan(args)|
    ensures !env.pathExists
    ensures RunStep(env, Plan(args)[k], w).result.Ok?
  {
    RunsPlan(args, env, Plan(args));
    ShortCircuit(env, Plan(args), Start(env));
    w := RunSteps(env, Plan(args)[..k], Start(env)).world;
  }

  /** A successful run of the local plan committed. */
  lemma LocalPlanCommitted(args: Args, env: Env)
    requires RunSteps(env, LocalPlan(args), Start(env)).result.Ok?
    ensures Succeeds(env, GitCommit)
    ensures Exec(GitCommit) in RunSteps(env, LocalPlan(args), Start(env)).world.trace
  {
    var n := args.name;
    var a := [MakeProjectDir(n), IdentityCheck("user.name"), IdentityCheck("user.email"), UvCheck,
      EnterDir(n), EnvironmentInit, ManifestWrite(args.setup),
      AssetDownload(GitignoreUrl, ".gitignore"), AssetDownload(LicenseUrl, "LICENSE")];
    assert LocalPlan(args) == a + [RepositoryInit];
    LastStepOk(env, a, RepositoryInit, Start(env));
    var w := RunSteps(env, a, Start(env)).world;
    StepBody(env, RepositoryInit, w);
    Committed(env, w);
  }

  /** A successful `initialize_git_repo` ran the commit, and it succeeded. */
  lemma Committed(env: Env, w: World)
    requires InitializeGitRepo(env, w).result.Ok?
    ensures Succeeds(env, GitCommit)
    ensures Exec(GitCommit) in InitializeGitRepo(env, w).world.trace
  {
    var q := InitializeGitRepo(env, w);
    assert Since(w, q.world) == GitInitSequence;
    assert Since(w, q.world)[3] == Exec(GitCommit);
  }

  // ---------------------------------------------------------------- sole emitters

  /** Only writing the manifest installs requirements, and only past a
      successful write of a known template. */
  lemma OnlyManifestInstalls(env: Env, t: Step, e: Effect)
    requires e == Exec(UvAdd) || e == Exec(UvSync)
    requires Emits(env, t, e)
    ensures t.ManifestWrite? && t.setup in KnownSetups && t.setup != "blank"
  {
  }

  /** requirements.txt is written by the manifest step with its template, or
      by a download aimed at that file name. */
  lemma OnlyManifestWritesRequirements(env: Env, t: Step, c: string)
    requires Emits(env, t, WriteFile(RequirementsFile, c))
    ensures || (t.ManifestWrite? && Template(env.templates, t.setup) == Some(c))
            || (t.AssetDownload? && t.file == RequirementsFile)
  {
  }

  /** Only the uv check probes or installs uv; pip runs only after a failed probe. */
  lemma OnlyUvCheck(env: Env, t: Step, e: Effect)
    requires e == Exec(UvVersion) || e == Exec(PipInstallUv)
    requires Emits(env, t, e)
    ensures t == UvCheck
    ensures e == Exec(PipInstallUv) ==> !Succeeds(env, UvVersion)
  {
  }

  /** Only the environment step runs `uv init` and `uv venv`. */
  lemma OnlyEnvironmentInit(env: Env, t: Step, e: Effect)
    requires e == Exec(UvInit) || e == Exec(UvVenv)
    requires Emits(env, t, e)
    ensures t == EnvironmentInit
  {
  }

  /** Only the identity check for `key` reads `key` or sets it globally, and it
      reads a line or sets the key only when the key is unset. */
  lemma OnlyIdentity(env: Env, t: Step, key: string, e: Effect)
    requires e == Exec(GitConfigGet(key)) || (e.Exec? && IsConfigSet(e.command, key))
    requires Emits(env, t, e)
    ensures t == IdentityCheck(key)
    ensures e != Exec(GitConfigGet(key)) ==> Unset(env, key)
  {
    match t
    case MakeProjectDir(_) =>
    case IdentityCheck(k) =>
    case UvCheck =>
    case EnterDir(_) =>
    case EnvironmentInit =>
    case ManifestWrite(_) =>
    case AssetDownload(_, _) =>
    case RepositoryInit =>
    case RemoteIntegration(repo, private) =>
      RemoteIsNotIdentity(env, repo, private, key, e);
  }

  /** Only the identity checks read standard input. */
  lemma OnlyIdentityReads(env: Env, t: Step)
    requires Emits(env, t, ReadLine)
    ensures t.IdentityCheck? && Unset(env, t.key)
  {
  }

  /** Only a download of `url` fetches it. */
  lemma OnlyDownloadFetches(env: Env, t: Step, url: string)
    requires Emits(env, t, Fetch(url))
    ensures t.AssetDownload? && t.url == url
  {
  }

  /** A file other than requirements.txt is written only by a download into
      it, after a successful fetch, with the body fetched. */
  lemma OnlyDownloadWrites(env: Env, t: Step, file: string, c: string)
    requires file != RequirementsFile
    requires Emits(env, t, WriteFile(file, c))
    ensures t.AssetDownload? && t.file == file && FetchOk(env, t.url) && env.get(t.url).body.value == c
  {
  }

  /** Only the repository step runs the four commands of `initialize_git_repo`. */
  lemma OnlyRepositoryInit(env: Env, t: Step, e: Effect)
    requires e in GitInitSequence
    requires Emits(env, t, e)
    ensures t == RepositoryInit
  {
  }

  /** The effects of the GitHub block. */
  ghost predicate IsRemoteEffect(e: Effect) {
    || e.CreateRepo?
    || e == Exec(GitBranchMain)
    || e == Exec(GitUserProbe)
    || e == Exec(GitPush)
    || (e.Exec? && e.command.program == "git" && |e.command.args| == 4
        && e.command.args[..3] == ["remote", "add", "origin"])
  }

  /** Every command of the identity check is a `git config`, which the GitHub
      block never runs. */
  lemma IdentityIsNotRemote(env: Env, key: string, e: Effect)
    requires IdentityEmits(env, key, e)
    ensures !IsRemoteEffect(e)
  {
    if e.Exec? {
      assert e.command.args[0] == "config";
      assert e.command.args[1] != "--global" || |e.command.args| == 4;
      assert "config"[0] != "branch"[0] && "config"[0] != "push"[0] && "config"[0] != "remote"[0];
      assert "--get"[3] != "--global"[3];
    }
  }

  /** The GitHub block never runs `git config --get` nor sets a key globally. */
  lemma RemoteIsNotIdentity(env: Env, repo: string, private: bool, key: string, e: Effect)
    requires GitHubEmits(env, repo, private, e)
    ensures e != Exec(GitConfigGet(key)) && !(e.Exec? && IsConfigSet(e.command, key))
  {
    if e.Exec? && e.command != GitUserProbe {
      assert e.command.args[0] != "config" by {
        assert "config"[0] != "branch"[0] && "config"[0] != "push"[0] && "config"[0] != "remote"[0];
      }
    }
    if e == Exec(GitUserProbe) {
      assert "--get"[3] != "--global"[3];
    }
  }

  /** Only the GitHub block touches GitHub: it calls the API only with a token,
      for its own repository and visibility, and does anything else only after
      the API accepted the repository. */
  lemma OnlyRemoteIntegration(env: Env, t: Step, e: Effect)
    requires IsRemoteEffect(e)
    requires Emits(env, t, e)
    ensures t.RemoteIntegration? && env.token.Some?
    ensures e.CreateRepo? ==> e == CreateRepo(t.repo, t.private)
    ensures !e.CreateRepo? ==> ApiOk(env, t.repo, t.private)
  {
    match t
    case MakeProjectDir(_) =>
    case IdentityCheck(key) =>
      IdentityIsNotRemote(env, key, e);
    case UvCheck =>
    case EnterDir(_) =>
    case EnvironmentInit =>
    case ManifestWrite(_) =>
    case AssetDownload(_, _) =>
    case RepositoryInit =>
    case RemoteIntegration(_, _) =>
  }

  /** Only the manifest step rejects a setup name. */
  lemma OnlyManifestRejects(t: Step, setup: string)
    requires FailsWith(t, InvalidSetup(setup))
    ensures t == ManifestWrite(setup)
  {
  }

  /** Only the GitHub block reports a missing token. */
  lemma OnlyRemoteNeedsToken(t: Step)
    requires FailsWith(t, TokenNotSet)
    ensures t.RemoteIntegration?
  {
  }
}

=== FILE: runs.dfy ===
/** A whole run of `main` predicted from the oracles alone: which steps
    succeed, and what each adds to the trace. The prediction is replayed step
    by step and shown to agree with the run; for the concrete plan this gives
    the conditions under which `main` returns `Ok(())` and the exact trace it
    leaves. */
module Runs {
  import opened Text
  import opened Effects
  import opened Steps
  import opened Pipeline
  import opened Provenance

  // ---------------------------------------------------------------- one step, predicted

  /** The body a GET of `url` was answered with, or nothing. */
  function Body(env: Env, url: string): string {
    match env.get(url)
    case Response(_, Some(b)) => b
    case _ => ""
  }

  /** The effects of a successful uv check. */
  function UvTrace(env: Env): seq<Effect> {
    if Succeeds(env, UvVersion) then [Exec(UvVersion)] else [Exec(UvVersion), Exec(PipInstallUv)]
  }

  /** The effects of a successful `create_requirements_file` for `setup`. */
  function ManifestTrace(env: Env, setup: string): seq<Effect> {
    [WriteFile(RequirementsFile, Template(env.templates, setup).GetOr(""))]
      + (if setup == "blank" then [] else [Exec(UvAdd), Exec(UvSync)])
  }

  /** The effects of a successful download of `url` into `file`. */
  function DownloadTrace(env: Env, url: string, file: string): seq<Effect> {
    [Fetch(url), WriteFile(file, Body(env, url))]
  }

  /** Step `s` succeeds from `w`, stated over the oracles. */
  predicate Passes(env: Env, s: Step, w: World) {
    match s
    case MakeProjectDir(_) => env.createDirOk
    case IdentityCheck(key) => IdentityPasses(env, key, w.stdin)
    case UvCheck => Succeeds(env, UvVersion) || Succeeds(env, PipInstallUv)
    case EnterDir(_) => env.chdirOk
    case EnvironmentInit => Succeeds(env, UvInit) && Succeeds(env, UvVenv)
    case ManifestWrite(setup) =>
      && setup in KnownSetups
      && env.writable(RequirementsFile)
      && (setup == "blank" || (Succeeds(env, UvAdd) && Succeeds(env, UvSync)))
    case AssetDownload(url, file) => FetchOk(env, url) && env.writable(file)
    case RepositoryInit =>
      Succeeds(env, GitInit) && Succeeds(env, GitAutocrlf) && Succeeds(env, GitAddAll) && Succeeds(env, GitCommit)
    case RemoteIntegration(repo, private) => env.token.Some? && ApiOk(env, repo, private) && RemoteOk(env, w, repo)
  }

  /** The effects step `s` adds when it succeeds from `w`. */
  function Adds(env: Env, s: Step, w: World): seq<Effect> {
    match s
    case MakeProjectDir(p) => [CreateDir(p)]
    case IdentityCheck(key) => IdentityTrace(env, key, w.stdin)
    case UvCheck => UvTrace(env)
    case EnterDir(p) => [ChangeDir(p)]
    case EnvironmentInit => [Exec(UvInit), Exec(UvVenv)]
    case ManifestWrite(setup) => ManifestTrace(env, setup)
    case AssetDownload(url, file) => DownloadTrace(env, url, file)
    case RepositoryInit => GitInitSequence
    case RemoteIntegration(repo, private) => [CreateRepo(repo, private)] + RemoteCommands(Owner(env, w), repo)
  }

  /** The world after step `s` succeeded from `w`: only an identity check that
      prompted consumes a line and stores a value. */
  function After(env: Env, s: Step, w: World): World {
    var prompted := s.IdentityCheck? && Unset(env, s.key);
    World(w.trace + Adds(env, s, w),
          if prompted then RestLines(w.stdin) else w.stdin,
          if prompted then w.globalConfig[s.key := Trim(NextLine(w.stdin))] else w.globalConfig)
  }

  /** Every step but an identity check only adds effects. */
  lemma AfterKeepsInput(env: Env, s: Step, w: World)
    requires !s.IdentityCheck?
    ensures After(env, s, w) == w.(trace := w.trace + Adds(env, s, w))
  {
  }

  lemma IdentityOutcome(env: Env, key: string, w: World)
    ensures var o := CheckGitConfig(env, w, key);
      && (o.result.Ok? <==> IdentityPasses(env, key, w.stdin))
      && (o.result.Ok? ==> o.world == After(env, IdentityCheck(key), w))
  {
    var o := CheckGitConfig(env, w, key);
    SinceRebuild(w, o.world);
  }

  lemma UvOutcome(env: Env, w: World)
    ensures var o := CheckUvInstallation(env, w);
      && (o.result.Ok? <==> Succeeds(env, UvVersion) || Succeeds(env, PipInstallUv))
      && (o.result.Ok? ==> o.world == After(env, UvCheck, w))
  {
    var o := CheckUvInstallation(env, w);
    SinceRebuild(w, o.world);
  }

  lemma EnvironmentOutcome(env: Env, w: World)
    ensures var o := SetupEnvironment(env, w);
      && (o.result.Ok? <==> Succeeds(env, UvInit) && Succeeds(env, UvVenv))
      && (o.result.Ok? ==> o.world == After(env, EnvironmentInit, w))
  {
    var o := SetupEnvironment(env, w);
    SinceRebuild(w, o.world);
  }

  lemma ManifestOutcome(env: Env, w: World, setup: string)
    ensures var o := CreateRequirementsFile(env, w, setup);
      && (o.result.Ok? <==> Passes(env, ManifestWrite(setup), w))
      && (o.result.Ok? ==> o.world == After(env, ManifestWrite(setup), w))
  {
    var o := CreateRequirementsFile(env, w, setup);
    AfterKeepsInput(env, ManifestWrite(setup), w);
    if o.result.Ok? {
      assert Template(env.templates, setup).GetOr("") == Template(env.templates, setup).value;
      assert Since(w, o.world) == ManifestTrace(env, setup);
      SinceRebuild(w, o.world);
    }
  }

  lemma DownloadOutcome(env: Env, w: World, url: string, file: string)
    ensures var o := DownloadAndWriteFile(env, w, url, file);
      && (o.result.Ok? <==> FetchOk(env, url) && env.writable(file))
      && (o.result.Ok? ==> o.world == After(env, AssetDownload(url, file), w))
  {
    var o := DownloadAndWriteFile(env, w, url, file);
    SinceRebuild(w, o.world);
  }

  lemma GitInitOutcome(env: Env, w: World)
    ensures var o := InitializeGitRepo(env, w);
      && (o.result.Ok? <==> Passes(env, RepositoryInit, w))
      && (o.result.Ok? ==> o.world == After(env, RepositoryInit, w))
  {
    var o := InitializeGitRepo(env, w);
    var n := |Since(w, o.world)|;
    assert GitInitSequence[0].command == GitInit;
    assert GitInitSequence[1].command == GitAutocrlf;
    assert GitInitSequence[2].command == GitAddAll;
    assert GitInitSequence[3].command == GitCommit;
    if o.result.Ok? {
      assert Since(w, o.world) == GitInitSequence;
    }
    SinceRebuild(w, o.world);
  }

  lemma RemoteOutcome(env: Env, w: World, repo: string, private: bool)
    ensures var o := RunStep(env, RemoteIntegration(repo, private), w);
      && (o.result.Ok? <==> Passes(env, RemoteIntegration(repo, private), w))
      && (o.result.Ok? ==> o.world == After(env, RemoteIntegration(repo, private), w))
  {
    var s := RemoteIntegration(repo, private);
    StepBody(env, s, w);
    GitHubIntegrationOk(env, w, repo, private);
    var g := GitHubIntegration(env, w, repo, private);
    if g.result.Ok? {
      GitHubIntegrationTrace(env, w, repo, private);
      SinceRebuild(w, g.world);
    }
  }

  /** Each step succeeds exactly when `Passes` says, and then leaves `After`. */
  lemma StepOutcome(env: Env, s: Step, w: World)
    ensures RunStep(env, s, w).result.Ok? <==> Passes(env, s, w)
    ensures Passes(env, s, w) ==> RunStep(env, s, w).world == After(env, s, w)
  {
    StepBody(env, s, w);
    match s
    case MakeProjectDir(_) =>
    case IdentityCheck(key) => IdentityOutcome(env, key, w);
    case UvCheck => UvOutcome(env, w);
    case EnterDir(_) =>
    case EnvironmentInit => EnvironmentOutcome(env, w);
    case ManifestWrite(setup) => ManifestOutcome(env, w, setup);
    case AssetDownload(url, file) => DownloadOutcome(env, w, url, file);
    case RepositoryInit => GitInitOutcome(env, w);
    case RemoteIntegration(repo, private) => RemoteOutcome(env, w, repo, private);
  }

  // ---------------------------------------------------------------- a list of steps, predicted

  /** The predicted run of `steps` from `w`: the final world if every step
      passes, `None` as soon as one does not. */
  function Replay(env: Env, steps: seq<Step>, w: World): Option<World>
    decreases |steps|
  {
    if steps == [] then Some(w)
    else if !Passes(env, steps[0], w) then None
    else Replay(env, steps[1..], After(env, steps[0], w))
  }

  /** `?`-chained steps succeed exactly when the prediction does, ending in the
      predicted world. */
  lemma {:induction false} RunStepsReplay(env: Env, steps: seq<Step>, w: World)
    decreases |steps|
    ensures RunSteps(env, steps, w).result.Ok? <==> Replay(env, steps, w).Some?
    ensures Replay(env, steps, w).Some? ==> RunSteps(env, steps, w).world == Replay(env, steps, w).value
  {
    if steps != [] {
      StepOutcome(env, steps[0], w);
      if Passes(env, steps[0], w) {
        RunStepsReplay(env, steps[1..], After(env, steps[0], w));
      }
    }
  }

  /** Predicting `a + [s]` predicts `a`, then `s` from where `a` ends. */
  lemma {:induction false} ReplaySnoc(env: Env, a: seq<Step>, s: Step, w: World)
    decreases |a|
    ensures Replay(env, a + [s], w)
         == (match Replay(env, a, w)
             case None => None
             case Some(x) => if Passes(env, s, x) then Some(After(env, s, x)) else None)
  {
    if a == [] {
      assert a + [s] == [s];
      assert [s][1..] == [];
    } else {
      assert (a + [s])[0] == a[0];
      assert (a + [s])[1..] == a[1..] + [s];
      if Passes(env, a[0], w) {
        ReplaySnoc(env, a[1..], s, After(env, a[0], w));
      }
    }
  }

  /** Predicting `a + b` predicts `a`, then `b` from where `a` ends. */
  lemma {:induction false} ReplayAppend(env: Env, a: seq<Step>, b: seq<Step>, w: World)
    decreases |a|
    ensures Replay(env, a + b, w)
         == (match Replay(env, a, w) case None => None case Some(x) => Replay(env, b, x))
  {
    if a == [] {
      assert a + b == b;
    } else {
      assert (a + b)[0] == a[0];
      assert (a + b)[1..] == a[1..] + b;
      if Passes(env, a[0], w) {
        ReplayAppend(env, a[1..], b, After(env, a[0], w));
      }
    }
  }

  // ---------------------------------------------------------------- the plan, predicted

  /** Standard input once `user.name` was checked: one line shorter if it prompted. */
  function NameStdin(env: Env): seq<string> {
    if Unset(env, "user.name") then RestLines(env.stdin) else env.stdin
  }

  /** The owner a `-g` run registers its remote under: the name the run itself
      stored, or else the one git reports. */
  function ExpectedOwner(env: Env): string {
    if Unset(env, "user.name") then Trim(NextLine(env.stdin)) else ProbedOwner(env)
  }

  /** The directory can be created and both identity checks succeed. */
  predicate OpeningPasses(env: Env) {
    && env.createDirOk
    && IdentityPasses(env, "user.name", env.stdin)
    && IdentityPasses(env, "user.email", NameStdin(env))
  }

  /** uv is there or installs, the directory can be entered, the environment
      initialises and the manifest for `setup` is written and installed. */
  predicate MiddlePasses(env: Env, setup: string) {
    && (Succeeds(env, UvVersion) || Succeeds(env, PipInstallUv))
    && env.chdirOk
    && Succeeds(env, UvInit) && Succeeds(env, UvVenv)
    && setup in KnownSetups
    && env.writable(RequirementsFile)
    && (setup == "blank" || (Succeeds(env, UvAdd) && Succeeds(env, UvSync)))
  }

  /** Both downloads are fetched and written, and every git command of the first commit succeeds. */
  predicate ClosingPasses(env: Env) {
    && FetchOk(env, GitignoreUrl) && env.writable(".gitignore")
    && FetchOk(env, LicenseUrl) && env.writable("LICENSE")
    && Succeeds(env, GitInit) && Succeeds(env, GitAutocrlf) && Succeeds(env, GitAddAll) && Succeeds(env, GitCommit)
  }

  /** Everything the local part of `main` needs from the world. */
  predicate LocalPasses(args: Args, env: Env) {
    !env.pathExists && OpeningPasses(env) && MiddlePasses(env, args.setup) && ClosingPasses(env)
  }

  /** Everything the GitHub block needs from the world, when `-g` is given. */
  predicate RemotePasses(args: Args, env: Env) {
    args.githubRepo ==>
      && env.token.Some?
      && ApiOk(env, RepoName(args), args.private)
      && Succeeds(env, GitBranchMain)
      && env.process(GitUserProbe).Exited?
      && Succeeds(env, GitRemoteAdd(RemoteUrl(ExpectedOwner(env), RepoName(args))))
      && Succeeds(env, GitPush)
  }

  /** The effects of a successful local part, in order. */
  function LocalTrace(args: Args, env: Env): seq<Effect> {
    [CreateDir(args.name)]
      + IdentityTrace(env, "user.name", env.stdin)
      + IdentityTrace(env, "user.email", NameStdin(env))
      + UvTrace(env)
      + [ChangeDir(args.name), Exec(UvInit), Exec(UvVenv)]
      + ManifestTrace(env, args.setup)
      + DownloadTrace(env, GitignoreUrl, ".gitignore")
      + DownloadTrace(env, LicenseUrl, "LICENSE")
      + GitInitSequence
  }

  /** The effects of a successful GitHub block, none without `-g`. */
  function RemotePlanTrace(args: Args, env: Env): seq<Effect> {
    if args.githubRepo then [CreateRepo(RepoName(args), args.private)] + RemoteCommands(ExpectedOwner(env), RepoName(args))
    else []
  }

  function Opening(n: string): seq<Step> {
    [MakeProjectDir(n), IdentityCheck("user.name"), IdentityCheck("user.email")]
  }

  function Middle(n: string, setup: string): seq<Step> {
    [UvCheck, EnterDir(n), EnvironmentInit, ManifestWrite(setup)]
  }

  function Closing(): seq<Step> {
    [AssetDownload(GitignoreUrl, ".gitignore"), AssetDownload(LicenseUrl, "LICENSE"), RepositoryInit]
  }

  /** Predicting a single step. */
  lemma ReplayOne(env: Env, s: Step, w: World)
    ensures Replay(env, [s], w) == if Passes(env, s, w) then Some(After(env, s, w)) else None
  {
    assert [s][1..] == [];
  }

  /** Directory and identity: the stored `user.name`, if any, is the owner. */
  lemma ReplayOpening(env: Env, n: string)
    ensures Replay(env, Opening(n), Start(env)).Some? <==> OpeningPasses(env)
    ensures Replay(env, Opening(n), Start(env)).Some? ==>
      var x := Replay(env, Opening(n), Start(env)).value;
      && x.trace == [CreateDir(n)] + IdentityTrace(env, "user.name", env.stdin) + IdentityTrace(env, "user.email", NameStdin(env))
      && Owner(env, x) == ExpectedOwner(env)
  {
    var s0 := Start(env);
    var d := MakeProjectDir(n);
    var name := IdentityCheck("user.name");
    var email := IdentityCheck("user.email");
    ReplayOne(env, d, s0);
    ReplaySnoc(env, [d], name, s0);
    assert [d] + [name] == [d, name];
    ReplaySnoc(env, [d, name], email, s0);
    assert [d, name] + [email] == Opening(n);
    OpeningWorld(env, n);
  }

  /** The world the opening steps leave when they all pass. */
  lemma OpeningWorld(env: Env, n: string)
    ensures var x := After(env, IdentityCheck("user.email"),
                       After(env, IdentityCheck("user.name"), After(env, MakeProjectDir(n), Start(env))));
      && x.trace == [CreateDir(n)] + IdentityTrace(env, "user.name", env.stdin) + IdentityTrace(env, "user.email", NameStdin(env))
      && Owner(env, x) == ExpectedOwner(env)
  {
    var x1 := After(env, MakeProjectDir(n), Start(env));
    var x2 := After(env, IdentityCheck("user.name"), x1);
    assert x1 == World([CreateDir(n)], env.stdin, map[]);
    NameStored(env, x1);
    EmailKeepsOwner(env, x2);
  }

  /** After the `user.name` check from a world with nothing stored, the stored
      name, if any, is the trimmed first line. */
  lemma NameStored(env: Env, w: World)
    requires w.globalConfig == map[]
    ensures var x := After(env, IdentityCheck("user.name"), w);
      && x.trace == w.trace + IdentityTrace(env, "user.name", w.stdin)
      && x.stdin == (if Unset(env, "user.name") then RestLines(w.stdin) else w.stdin)
      && ("user.name" in x.globalConfig <==> Unset(env, "user.name"))
      && ("user.name" in x.globalConfig ==> x.globalConfig["user.name"] == Trim(NextLine(w.stdin)))
  {
  }

  /** The `user.email` check leaves the owner alone. */
  lemma EmailKeepsOwner(env: Env, w: World)
    ensures var x := After(env, IdentityCheck("user.email"), w);
      && x.trace == w.trace + IdentityTrace(env, "user.email", w.stdin)
      && Owner(env, x) == Owner(env, w)
  {
    var x := After(env, IdentityCheck("user.email"), w);
    assert ("user.name" in x.globalConfig) == ("user.name" in w.globalConfig);
    if "user.name" in w.globalConfig {
      assert x.globalConfig["user.name"] == w.globalConfig["user.name"];
    }
  }

  /** uv, the working directory, the environment and the manifest. */
  lemma ReplayMiddle(env: Env, n: string, setup: string, w: World)
    ensures Replay(env, Middle(n, setup), w).Some? <==> MiddlePasses(env, setup)
    ensures Replay(env, Middle(n, setup), w).Some? ==>
      Replay(env, Middle(n, setup), w).value
        == w.(trace := w.trace + UvTrace(env) + [ChangeDir(n), Exec(UvInit), Exec(UvVenv)] + ManifestTrace(env, setup))
  {
    var uv := UvCheck;
    var cd := EnterDir(n);
    var ev := EnvironmentInit;
    var mf := ManifestWrite(setup);
    ReplayOne(env, uv, w);
    ReplaySnoc(env, [uv], cd, w);
    assert [uv] + [cd] == [uv, cd];
    ReplaySnoc(env, [uv, cd], ev, w);
    assert [uv, cd] + [ev] == [uv, cd, ev];
    ReplaySnoc(env, [uv, cd, ev], mf, w);
    assert [uv, cd, ev] + [mf] == Middle(n, setup);
    if Replay(env, Middle(n, setup), w).Some? {
      var x1 := After(env, uv, w);
      var x2 := After(env, cd, x1);
      var x3 := After(env, ev, x2);
      assert x3.trace == w.trace + UvTrace(env) + [ChangeDir(n)] + [Exec(UvInit), Exec(UvVenv)];
      assert w.trace + UvTrace(env) + [ChangeDir(n)] + [Exec(UvInit), Exec(UvVenv)]
          == w.trace + UvTrace(env) + [ChangeDir(n), Exec(UvInit), Exec(UvVenv)];
    }
  }

  /** The two downloads and the first commit. */
  lemma ReplayClosing(env: Env, w: World)
    ensures Replay(env, Closing(), w).Some? <==> ClosingPasses(env)
    ensures Replay(env, Closing(), w).Some? ==>
      Replay(env, Closing(), w).value
        == w.(trace := w.trace + DownloadTrace(env, GitignoreUrl, ".gitignore")
                               + DownloadTrace(env, LicenseUrl, "LICENSE") + GitInitSequence)
  {
    var gi := AssetDownload(GitignoreUrl, ".gitignore");
    var lic := AssetDownload(LicenseUrl, "LICENSE");
    ReplayOne(env, gi, w);
    ReplaySnoc(env, [gi], lic, w);
    assert [gi] + [lic] == [gi, lic];
    ReplaySnoc(env, [gi, lic], RepositoryInit, w);
    assert [gi, lic] + [RepositoryInit] == Closing();
  }

  /** The GitHub block alone, from any world. */
  lemma ReplayGitHub(env: Env, repo: string, private: bool, w: World)
    ensures Replay(env, [RemoteIntegration(repo, private)], w)
         == if env.token.Some? && ApiOk(env, repo, private) && RemoteOk(env, w, repo)
            then Some(w.(trace := w.trace + ([CreateRepo(repo, private)] + RemoteCommands(Owner(env, w), repo))))
            else None
  {
    ReplayOne(env, RemoteIntegration(repo, private), w);
    AfterKeepsInput(env, RemoteIntegration(repo, private), w);
  }

  /** The GitHub block, from the world the local part left. */
  lemma ReplayRemote(args: Args, env: Env, w: World)
    requires Owner(env, w) == ExpectedOwner(env)
    ensures Replay(env, RemotePlan(args), w).Some? <==> RemotePasses(args, env)
    ensures Replay(env, RemotePlan(args), w).Some? ==>
      Replay(env, RemotePlan(args), w).value.trace == w.trace + RemotePlanTrace(args, env)
  {
    if args.githubRepo {
      ReplayGitHub(env, RepoName(args), args.private, w);
    } else {
      assert w.trace + [] == w.trace;
    }
  }

  /** The local part of the plan, from the start. */
  lemma ReplayLocal(args: Args, env: Env)
    requires !env.pathExists
    ensures Replay(env, LocalPlan(args), Start(env)).Some? <==> LocalPasses(args, env)
    ensures Replay(env, LocalPlan(args), Start(env)).Some? ==>
      var x := Replay(env, LocalPlan(args), Start(env)).value;
      x.trace == LocalTrace(args, env) && Owner(env, x) == ExpectedOwner(env)
  {
    var n := args.name;
    var s0 := Start(env);
    var o := Opening(n);
    var m := Middle(n, args.setup);
    var c := Closing();
    assert LocalPlan(args) == o + m + c;
    ReplayAppend(env, o + m, c, s0);
    ReplayAppend(env, o, m, s0);
    ReplayOpening(env, n);
    if Replay(env, o, s0).Some? {
      var x1 := Replay(env, o, s0).value;
      ReplayMiddle(env, n, args.setup, x1);
      if Replay(env, m, x1).Some? {
        var x2 := Replay(env, m, x1).value;
        ReplayClosing(env, x2);
        assert x2.globalConfig == x1.globalConfig && x2.stdin == x1.stdin;
      }
    }
  }

  /** Once the local part succeeded, the user name `get_git_username` reads is
      the expected owner. */
  lemma LocalOwner(args: Args, env: Env)
    requires !env.pathExists
    requires RunSteps(env, LocalPlan(args), Start(env)).result.Ok?
    ensures Owner(env, RunSteps(env, LocalPlan(args), Start(env)).world) == ExpectedOwner(env)
  {
    RunStepsReplay(env, LocalPlan(args), Start(env));
    ReplayLocal(args, env);
  }

  /** The whole plan, from the start. */
  lemma ReplayPlan(args: Args, env: Env)
    requires !env.pathExists
    ensures Replay(env, Plan(args), Start(env)).Some? <==> LocalPasses(args, env) && RemotePasses(args, env)
    ensures Replay(env, Plan(args), Start(env)).Some? ==>
      Replay(env, Plan(args), Start(env)).value.trace == LocalTrace(args, env) + RemotePlanTrace(args, env)
  {
    ReplayAppend(env, LocalPlan(args), RemotePlan(args), Start(env));
    ReplayLocal(args, env);
    if Replay(env, LocalPlan(args), Start(env)).Some? {
      ReplayRemote(args, env, Replay(env, LocalPlan(args), Start(env)).value);
    }
  }

  /** `main` returns `Ok(())` exactly when the world cooperates with every step,
      and a successful run leaves exactly the predicted effects, in order: the
      local part, then, with `-g`, the API call and the four commands of
      `setup_github_remote` under the expected owner. */
  lemma SuccessExactly(args: Args, env: Env)
    ensures Bootstrap(args, env).result.Ok? <==> LocalPasses(args, env) && RemotePasses(args, env)
    ensures Bootstrap(args, env).result.Ok? ==> Trace(args, env) == LocalTrace(args, env) + RemotePlanTrace(args, env)
  {
    if !env.pathExists {
      RunsPlan(args, env, Plan(args));
      RunStepsReplay(env, Plan(args), Start(env));
      ReplayPlan(args, env);
    }
  }
}

=== FILE: steps.dfy ===
/** The helper functions of src/main.rs, one function each. Every helper takes
    the oracle environment and the world so far and returns the world after it
    together with its `Result`. Besides what it computes, each contract states
    which effects the helper may add (`…Emits`) and which errors it may end
    with (`…FailsWith`); the pipeline lifts these to whole runs. */
module Steps {
  import opened Text
  import opened Effects

  /** The world changed only by gaining effects. */
  predicate OnlyTrace(w: World, w': World) {
    w.trace <= w'.trace && w'.stdin == w.stdin && w'.globalConfig == w.globalConfig
  }

  // ---------------------------------------------------------------- processes

  /** `run`: spawn `c`, wait, and fail unless it exits with success. */
  function RunCommand(env: Env, w: World, c: Command): (o: Outcome<()>)
    ensures o.world == Record(w, Exec(c))
    ensures o.result.Ok? <==> Succeeds(env, c)
    ensures o.result.Err? ==> IsCommandError(o.result.error, c)
    ensures o.result.Err? && env.process(c).Exited? ==> o.result.error == CommandFailed(c)
  {
    var w' := Record(w, Exec(c));
    match env.process(c)
    case NotSpawned => Outcome(w', Err(SpawnFailed(c)))
    case Exited(ok, _) => if ok then Outcome(w', Ok(())) else Outcome(w', Err(CommandFailed(c)))
  }

  /** `git_command`: run `git` with `args`. */
  function GitCommand(env: Env, w: World, args: seq<string>): (o: Outcome<()>)
    ensures o.world == Record(w, Exec(Command("git", args)))
    ensures o.result.Ok? <==> Succeeds(env, Command("git", args))
    ensures o.result.Err? ==> IsCommandError(o.result.error, Command("git", args))
  {
    RunCommand(env, w, Git(args))
  }

  // ---------------------------------------------------------------- directories

  /** `fs::create_dir(project_name)?`. */
  function CreateProjectDir(env: Env, w: World, path: string): (o: Outcome<()>)
    ensures o.world == Record(w, CreateDir(path))
    ensures o.result.Ok? <==> env.createDirOk
    ensures o.result.Err? ==> o.result.error == CreateDirFailed(path)
  {
    var w' := Record(w, CreateDir(path));
    if env.createDirOk then Outcome(w', Ok(())) else Outcome(w', Err(CreateDirFailed(path)))
  }

  /** `env::set_current_dir(project_name)?`: the one change of working directory. */
  function EnterProjectDir(env: Env, w: World, path: string): (o: Outcome<()>)
    ensures o.world == Record(w, ChangeDir(path))
    ensures o.result.Ok? <==> env.chdirOk
    ensures o.result.Err? ==> o.result.error == ChangeDirFailed(path)
  {
    var w' := Record(w, ChangeDir(path));
    if env.chdirOk then Outcome(w', Ok(())) else Outcome(w', Err(ChangeDirFailed(path)))
  }

  // ---------------------------------------------------------------- git identity

  /** `git config --get <key>` started and printed nothing: the key is unset. */
  predicate Unset(env: Env, key: string) {
    env.process(GitConfigGet(key)).Exited? && env.process(GitConfigGet(key)).stdout == ""
  }

  /** The line `read_line` returns: the next line, or nothing at end of input. */
  function NextLine(stdin: seq<string>): string {
    if |stdin| > 0 then stdin[0] else ""
  }

  function RestLines(stdin: seq<string>): seq<string> {
    if |stdin| > 0 then stdin[1..] else []
  }

  /** Reading a line splits the input into that line and the rest; at the end
      of input the line is empty and nothing is left. */
  lemma LineSplit(stdin: seq<string>)
    ensures stdin == [] ==> NextLine(stdin) == "" && RestLines(stdin) == []
    ensures stdin != [] ==> [NextLine(stdin)] + RestLines(stdin) == stdin
    ensures |RestLines(stdin)| == if stdin == [] then 0 else |stdin| - 1
  {
  }

  /** `get_user_input`: read one line and trim it. */
  function GetUserInput(w: World): (r: (string, World))
    ensures r.1 == Record(w, ReadLine).(stdin := RestLines(w.stdin))
    ensures IsTrimmed(r.0)
    ensures r.0 == Trim(NextLine(w.stdin))
  {
    (Trim(NextLine(w.stdin)), Record(w, ReadLine).(stdin := RestLines(w.stdin)))
  }

  ghost predicate IdentityEmits(env: Env, key: string, e: Effect) {
    || e == Exec(GitConfigGet(key))
    || (Unset(env, key) && (e == ReadLine || (e.Exec? && IsConfigSet(e.command, key))))
  }

  ghost predicate IdentityFailsWith(key: string, err: Error) {
    || err == SpawnFailed(GitConfigGet(key))
    || ((err.SpawnFailed? || err.CommandFailed?) && IsConfigSet(err.command, key))
  }

  /** The identity check for `key` succeeds with `stdin` left to read: git
      started, and an unset key was stored. */
  predicate IdentityPasses(env: Env, key: string, stdin: seq<string>) {
    && env.process(GitConfigGet(key)).Exited?
    && (Unset(env, key) ==> Succeeds(env, GitConfigSet(key, Trim(NextLine(stdin)))))
  }

  /** The effects of the identity check for `key` with `stdin` left: the probe,
      and for an unset key the prompt and the write. */
  function IdentityTrace(env: Env, key: string, stdin: seq<string>): seq<Effect> {
    if Unset(env, key) then [Exec(GitConfigGet(key)), ReadLine, Exec(GitConfigSet(key, Trim(NextLine(stdin))))]
    else [Exec(GitConfigGet(key))]
  }

  /** `check_git_config`: ask git for `key`; only when it prints nothing, prompt
      for a value on standard input and store it globally. */
  function CheckGitConfig(env: Env, w: World, key: string): (o: Outcome<()>)
    ensures w.trace <= o.world.trace
    ensures Since(w, o.world) == IdentityTrace(env, key, w.stdin)
    ensures o.world.stdin == if Unset(env, key) then RestLines(w.stdin) else w.stdin
    ensures o.result.Ok? <==> IdentityPasses(env, key, w.stdin)
    ensures o.world.globalConfig
         == if Unset(env, key) && o.result.Ok? then w.globalConfig[key := Trim(NextLine(w.stdin))] else w.globalConfig
    ensures o.result.Err? ==>
      o.result.error == (if Unset(env, key) then CommandFailed(GitConfigSet(key, Trim(NextLine(w.stdin))))
                         else SpawnFailed(GitConfigGet(key)))
        || (Unset(env, key) && o.result.error == SpawnFailed(GitConfigSet(key, Trim(NextLine(w.stdin)))))
  {
    var probe := GitConfigGet(key);
    var w1 := Record(w, Exec(probe));
    match env.process(probe)
    case NotSpawned => Outcome(w1, Err(SpawnFailed(probe)))
    case Exited(_, stdout) =>
      if stdout == "" then
        var (input, w2) := GetUserInput(w1);
        var o := GitCommand(env, w2, ["config", "--global", key, input]);
        assert Since(w, o.world) == [Exec(probe), ReadLine, Exec(GitConfigSet(key, input))];
        if o.result.Ok? then Outcome(o.world.(globalConfig := o.world.globalConfig[key := input]), o.result)
        else
          assert IsCommandError(o.result.error, GitConfigSet(key, input));
          o
      else
        assert Since(w, w1) == [Exec(probe)];
        Outcome(w1, Ok(()))
  }

  /** Every effect of the identity check for `key` is one it may add, and every
      error one it may end with. */
  lemma IdentityProvenance(env: Env, w: World, key: string)
    ensures var o := CheckGitConfig(env, w, key);
      && (forall e | e in Since(w, o.world) :: IdentityEmits(env, key, e))
      && (o.result.Err? ==> IdentityFailsWith(key, o.result.error))
  {
    var o := CheckGitConfig(env, w, key);
    var store := GitConfigSet(key, Trim(NextLine(w.stdin)));
    assert IsConfigSet(store, key);
    IdentityTraceEmits(env, key, w.stdin);
  }

  /** Every effect of `IdentityTrace` is one the identity check may add. */
  lemma IdentityTraceEmits(env: Env, key: string, stdin: seq<string>)
    ensures forall e | e in IdentityTrace(env, key, stdin) :: IdentityEmits(env, key, e)
  {
    assert IsConfigSet(GitConfigSet(key, Trim(NextLine(stdin))), key);
  }

  /** Standard input is read exactly when git reports `key` unset, and then the
      trimmed line is written; otherwise only the probe runs and nothing else
      changes. */
  lemma PromptsExactlyWhenUnset(env: Env, w: World, key: string)
    ensures var o := CheckGitConfig(env, w, key);
      && (ReadLine in Since(w, o.world) <==> Unset(env, key))
      && (Unset(env, key) ==> Exec(GitConfigSet(key, Trim(NextLine(w.stdin)))) in Since(w, o.world))
      && (!Unset(env, key) ==> o.world == Record(w, Exec(GitConfigGet(key))))
      && (!Unset(env, key) && env.process(GitConfigGet(key)).Exited? ==> o.result == Ok(()))
  {
    var o := CheckGitConfig(env, w, key);
    if Unset(env, key) {
      assert Since(w, o.world)[1] == ReadLine;
      assert Since(w, o.world)[2] == Exec(GitConfigSet(key, Trim(NextLine(w.stdin))));
    } else {
      SinceRebuild(w, o.world);
    }
  }

  /** The only value `check_git_config` stores for `key` is the next line of
      input, trimmed, and only when git reported `key` unset. */
  lemma StoredValue(env: Env, w: World, key: string, c: Command)
    requires Exec(c) in Since(w, CheckGitConfig(env, w, key).world)
    requires IsConfigSet(c, key)
    ensures Unset(env, key)
    ensures c == GitConfigSet(key, Trim(NextLine(w.stdin)))
  {
    assert Exec(c) != Exec(GitConfigGet(key)) by {
      assert |GitConfigGet(key).args| == 3;
    }
  }

  // ---------------------------------------------------------------- uv

  ghost predicate UvCheckEmits(env: Env, e: Effect) {
    e == Exec(UvVersion) || (!Succeeds(env, UvVersion) && e == Exec(PipInstallUv))
  }

  /** `check_uv_installation`: probe `uv --version`; only if that fails, install uv with pip. */
  function CheckUvInstallation(env: Env, w: World): (o: Outcome<()>)
    ensures OnlyTrace(w, o.world)
    ensures |Since(w, o.world)| > 0 && Since(w, o.world)[0] == Exec(UvVersion)
    ensures Exec(PipInstallUv) in Since(w, o.world) <==> !Succeeds(env, UvVersion)
    ensures Succeeds(env, UvVersion) ==> Since(w, o.world) == [Exec(UvVersion)] && o.result == Ok(())
    ensures !Succeeds(env, UvVersion) ==>
      Since(w, o.world) == [Exec(UvVersion), Exec(PipInstallUv)]
      && (o.result.Ok? <==> Succeeds(env, PipInstallUv))
    ensures o.result.Err? ==> IsCommandError(o.result.error, PipInstallUv)
    ensures forall e | e in Since(w, o.world) :: UvCheckEmits(env, e)
  {
    var probe := RunCommand(env, w, UvVersion);
    if probe.result.Err? then
      var o := RunCommand(env, probe.world, PipInstallUv);
      assert Since(w, o.world) == [Exec(UvVersion), Exec(PipInstallUv)];
      o
    else
      assert Since(w, probe.world) == [Exec(UvVersion)];
      probe
  }

  ghost predicate EnvironmentEmits(env: Env, e: Effect) {
    e == Exec(UvInit) || (Succeeds(env, UvInit) && e == Exec(UvVenv))
  }

  /** `setup_environment`: `uv init .`, then `uv venv .venv`. */
  function SetupEnvironment(env: Env, w: World): (o: Outcome<()>)
    ensures OnlyTrace(w, o.world)
    ensures |Since(w, o.world)| > 0 && Since(w, o.world)[0] == Exec(UvInit)
    ensures Exec(UvVenv) in Since(w, o.world) <==> Succeeds(env, UvInit)
    ensures Succeeds(env, UvInit) ==> Since(w, o.world) == [Exec(UvInit), Exec(UvVenv)]
    ensures !Succeeds(env, UvInit) ==> Since(w, o.world) == [Exec(UvInit)]
    ensures o.result.Ok? <==> Succeeds(env, UvInit) && Succeeds(env, UvVenv)
    ensures o.result.Err? ==> IsCommandError(o.result.error, UvInit) || IsCommandError(o.result.error, UvVenv)
    ensures !Succeeds(env, UvInit) ==> o.result.Err? && IsCommandError(o.result.error, UvInit)
    ensures Succeeds(env, UvInit) && o.result.Err? ==> IsCommandError(o.result.error, UvVenv)
    ensures forall e | e in Since(w, o.world) :: EnvironmentEmits(env, e)
  {
    var init := RunCommand(env, w, UvInit);
    if init.result.Err? then
      assert Since(w, init.world) == [Exec(UvInit)];
      init
    else
      var o := RunCommand(env, init.world, UvVenv);
      assert Since(w, o.world) == [Exec(UvInit), Exec(UvVenv)];
      o
  }

  // ---------------------------------------------------------------- requirements

  /** The embedded requirement list for a setup name, if the name is one of the four known. */
  function Template(t: Templates, setup: string): (r: Option<string>)
    ensures r.Some? <==> setup in KnownSetups
    ensures setup == "basic" ==> r == Some(t.basic)
    ensures setup == "advanced" ==> r == Some(t.advanced)
    ensures setup == "data-science" ==> r == Some(t.dataScience)
    ensures setup == "blank" ==> r == Some("")
  {
    match setup
    case "basic" => Some(t.basic)
    case "advanced" => Some(t.advanced)
    case "data-science" => Some(t.dataScience)
    case "blank" => Some("")
    case _ => None
  }

  ghost predicate RequirementsEmits(env: Env, setup: string, e: Effect) {
    && setup in KnownSetups
    && (|| e == WriteFile(RequirementsFile, Template(env.templates, setup).value)
        || (&& setup != "blank"
            && env.writable(RequirementsFile)
            && (e == Exec(UvAdd) || (Succeeds(env, UvAdd) && e == Exec(UvSync)))))
  }

  ghost predicate RequirementsFailsWith(setup: string, err: Error) {
    || err == InvalidSetup(setup)
    || err == WriteFailed(RequirementsFile)
    || IsCommandError(err, UvAdd)
    || IsCommandError(err, UvSync)
  }

  /** `create_requirements_file`: write the template for `setup` to
      requirements.txt, then, unless the setup is blank, `uv add -r
      requirements.txt` and `uv sync`. An unknown setup fails before writing. */
  function CreateRequirementsFile(env: Env, w: World, setup: string): (o: Outcome<()>)
    ensures OnlyTrace(w, o.world)
    ensures Since(w, o.world) == RequirementsTrace(env, setup)
    ensures setup !in KnownSetups ==> o.result == Err(InvalidSetup(setup))
    ensures o.result.Ok? <==>
      && setup in KnownSetups
      && env.writable(RequirementsFile)
      && (setup == "blank" || (Succeeds(env, UvAdd) && Succeeds(env, UvSync)))
    ensures o.result.Err? ==> RequirementsFailsWith(setup, o.result.error)
    ensures o.result == Err(InvalidSetup(setup)) ==> setup !in KnownSetups
    ensures setup in KnownSetups && !env.writable(RequirementsFile) ==> o.result == Err(WriteFailed(RequirementsFile))
    ensures setup in KnownSetups && setup != "blank" && env.writable(RequirementsFile) ==>
      && (!Succeeds(env, UvAdd) ==> o.result.Err? && IsCommandError(o.result.error, UvAdd))
      && (Succeeds(env, UvAdd) && o.result.Err? ==> IsCommandError(o.result.error, UvSync))
  {
    match Template(env.templates, setup)
    case None => Outcome(w, Err(InvalidSetup(setup)))
    case Some(content) =>
      var w1 := Record(w, WriteFile(RequirementsFile, content));
      if !env.writable(RequirementsFile) then Outcome(w1, Err(WriteFailed(RequirementsFile)))
      else if setup == "blank" then Outcome(w1, Ok(()))
      else
        var o := InstallRequirements(env, w1);
        assert Since(w, o.world) == [WriteFile(RequirementsFile, content)] + Since(w1, o.world);
        o
  }

  /** The effects `create_requirements_file` adds for `setup`: nothing for an
      unknown setup, otherwise the write, then the install unless the write
      failed or the setup is blank. */
  function RequirementsTrace(env: Env, setup: string): seq<Effect> {
    match Template(env.templates, setup)
    case None => []
    case Some(content) =>
      [WriteFile(RequirementsFile, content)]
        + (if !env.writable(RequirementsFile) || setup == "blank" then [] else InstallTrace(env))
  }

  /** The effects of the install half: `uv add`, and `uv sync` only after a successful add. */
  function InstallTrace(env: Env): seq<Effect> {
    if Succeeds(env, UvAdd) then [Exec(UvAdd), Exec(UvSync)] else [Exec(UvAdd)]
  }

  /** What the effects of `create_requirements_file` look like: the template
      is written first, a blank setup writes an empty file and installs nothing,
      `uv sync` only ever follows a successful `uv add`, and every effect is one
      the step may add. */
  lemma RequirementsShape(env: Env, w: World, setup: string)
    ensures var o := CreateRequirementsFile(env, w, setup);
      && (setup in KnownSetups ==>
            |Since(w, o.world)| > 0
            && Since(w, o.world)[0] == WriteFile(RequirementsFile, Template(env.templates, setup).value))
      && (setup == "blank" ==> Since(w, o.world) == [WriteFile(RequirementsFile, "")])
      && (Exec(UvSync) in Since(w, o.world) ==>
            && Since(w, o.world) == [WriteFile(RequirementsFile, Template(env.templates, setup).value), Exec(UvAdd), Exec(UvSync)]
            && Succeeds(env, UvAdd))
      && (setup in KnownSetups && setup != "blank" && env.writable(RequirementsFile) ==>
            Exec(UvAdd) in Since(w, o.world))
      && (o.result.Ok? ==>
            Since(w, o.world)
              == [WriteFile(RequirementsFile, Template(env.templates, setup).value)]
               + (if setup == "blank" then [] else [Exec(UvAdd), Exec(UvSync)]))
      && (forall e | e in Since(w, o.world) :: RequirementsEmits(env, setup, e))
  {
    var o := CreateRequirementsFile(env, w, setup);
    var t := RequirementsTrace(env, setup);
    if setup in KnownSetups {
      var write := WriteFile(RequirementsFile, Template(env.templates, setup).value);
      if !env.writable(RequirementsFile) || setup == "blank" {
        assert t == [write];
      } else if Succeeds(env, UvAdd) {
        assert t == [write, Exec(UvAdd), Exec(UvSync)];
      } else {
        assert t == [write, Exec(UvAdd)];
      }
    }
  }

  /** `uv sync` is only ever run by `create_requirements_file` for a known,
      non-blank setup, as its third effect, right after `uv add` succeeded. */
  lemma SyncAfterAdd(env: Env, w: World, setup: string)
    requires Exec(UvSync) in Since(w, CreateRequirementsFile(env, w, setup).world)
    ensures setup in KnownSetups && setup != "blank"
    ensures Succeeds(env, UvAdd)
    ensures var t := CreateRequirementsFile(env, w, setup).world.trace;
      |w.trace| + 2 < |t| && t[|w.trace| + 1] == Exec(UvAdd) && t[|w.trace| + 2] == Exec(UvSync)
  {
    RequirementsShape(env, w, setup);
    var o := CreateRequirementsFile(env, w, setup);
    assert Since(w, o.world)[1] == Exec(UvAdd) && Since(w, o.world)[2] == Exec(UvSync);
  }

  /** The install half of `create_requirements_file`: `uv add -r
      requirements.txt`, then `uv sync` only if that succeeded. */
  function InstallRequirements(env: Env, w: World): (o: Outcome<()>)
    ensures OnlyTrace(w, o.world)
    ensures Since(w, o.world) == InstallTrace(env)
    ensures o.result.Ok? <==> Succeeds(env, UvAdd) && Succeeds(env, UvSync)
    ensures o.result.Err? ==> IsCommandError(o.result.error, UvAdd) || IsCommandError(o.result.error, UvSync)
    ensures !Succeeds(env, UvAdd) ==> o.result.Err? && IsCommandError(o.result.error, UvAdd)
    ensures Succeeds(env, UvAdd) && o.result.Err? ==> IsCommandError(o.result.error, UvSync)
  {
    var add := RunCommand(env, w, UvAdd);
    if add.result.Err? then add
    else
      var o := RunCommand(env, add.world, UvSync);
      assert Since(w, o.world) == [Exec(UvAdd), Exec(UvSync)];
      o
  }

  // ---------------------------------------------------------------- downloads

  /** The GET of `url` answered with a success status and a readable body. */
  predicate FetchOk(env: Env, url: string) {
    env.get(url).Response? && IsSuccess(env.get(url).status) && env.get(url).body.Some?
  }

  ghost predicate DownloadEmits(env: Env, url: string, file: string, e: Effect) {
    e == Fetch(url) || (FetchOk(env, url) && e == WriteFile(file, env.get(url).body.value))
  }

  ghost predicate DownloadFailsWith(url: string, file: string, err: Error) {
    || err == DownloadFailed(url)
    || (err.HttpStatus? && err.url == url && !IsSuccess(err.status))
    || err == BodyUnreadable(url)
    || err == WriteFailed(file)
  }

  /** `download_and_write_file`: GET `url` and write the body to `file`; a
      status other than success fails before anything is written. */
  function DownloadAndWriteFile(env: Env, w: World, url: string, file: string): (o: Outcome<()>)
    ensures OnlyTrace(w, o.world)
    ensures |Since(w, o.world)| > 0 && Since(w, o.world)[0] == Fetch(url)
    ensures !FetchOk(env, url) ==> Since(w, o.world) == [Fetch(url)] && o.result.Err?
    ensures FetchOk(env, url) ==>
      && Since(w, o.world) == [Fetch(url), WriteFile(file, env.get(url).body.value)]
      && (o.result.Ok? <==> env.writable(file))
    ensures env.get(url).NoResponse? ==> o.result == Err(DownloadFailed(url))
    ensures env.get(url).Response? && !IsSuccess(env.get(url).status) ==>
      o.result == Err(HttpStatus(url, env.get(url).status))
    ensures env.get(url).Response? && IsSuccess(env.get(url).status) && env.get(url).body.None? ==>
      o.result == Err(BodyUnreadable(url))
    ensures FetchOk(env, url) && !env.writable(file) ==> o.result == Err(WriteFailed(file))
    ensures forall e | e in Since(w, o.world) :: DownloadEmits(env, url, file, e)
    ensures o.result.Err? ==> DownloadFailsWith(url, file, o.result.error)
  {
    var w1 := Record(w, Fetch(url));
    match env.get(url)
    case NoResponse => Outcome(w1, Err(DownloadFailed(url)))
    case Response(status, body) =>
      if !IsSuccess(status) then Outcome(w1, Err(HttpStatus(url, status)))
      else match body
        case None => Outcome(w1, Err(BodyUnreadable(url)))
        case Some(text) =>
          var w2 := Record(w1, WriteFile(file, text));
          if env.writable(file) then Outcome(w2, Ok(())) else Outcome(w2, Err(WriteFailed(file)))
  }

  // ---------------------------------------------------------------- local repository

  /** The four commands of `initialize_git_repo`, in order. */
  const GitInitSequence := [Exec(GitInit), Exec(GitAutocrlf), Exec(GitAddAll), Exec(GitCommit)]

  ghost predicate GitInitEmits(env: Env, e: Effect) {
    || e == Exec(GitInit)
    || (&& Succeeds(env, GitInit)
        && (|| e == Exec(GitAutocrlf)
            || (&& Succeeds(env, GitAutocrlf)
                && (e == Exec(GitAddAll) || (Succeeds(env, GitAddAll) && e == Exec(GitCommit))))))
  }

  ghost predicate GitInitFailsWith(err: Error) {
    || IsCommandError(err, GitInit)
    || IsCommandError(err, GitAutocrlf)
    || IsCommandError(err, GitAddAll)
    || IsCommandError(err, GitCommit)
  }

  /** `initialize_git_repo`: init, set `core.autocrlf`, stage everything, commit,
      stopping at the first command that fails. */
  function InitializeGitRepo(env: Env, w: World): (o: Outcome<()>)
    ensures OnlyTrace(w, o.world)
    ensures Since(w, o.world) == GitInitSequence[..GitInitReach(env)]
    ensures o.result.Ok? <==>
      Succeeds(env, GitInit) && Succeeds(env, GitAutocrlf) && Succeeds(env, GitAddAll) && Succeeds(env, GitCommit)
    ensures o.result.Err? ==> IsCommandError(o.result.error, GitInitSequence[GitInitReach(env) - 1].command)
  {
    var o1 := GitCommand(env, w, ["init"]);
    assert Since(w, o1.world) == GitInitSequence[..1];
    if o1.result.Err? then o1 else
    var o2 := GitCommand(env, o1.world, ["config", "core.autocrlf", "true"]);
    assert Since(w, o2.world) == GitInitSequence[..2];
    if o2.result.Err? then o2 else
    var o3 := GitCommand(env, o2.world, ["add", "."]);
    assert Since(w, o3.world) == GitInitSequence[..3];
    if o3.result.Err? then o3 else
    var o4 := GitCommand(env, o3.world, ["commit", "-m", "Initial commit"]);
    assert Since(w, o4.world) == GitInitSequence;
    o4
  }

  /** How many of the four commands `initialize_git_repo` gets to run: up to
      and including the first that fails. */
  function GitInitReach(env: Env): (n: nat)
    ensures 1 <= n <= 4
  {
    if !Succeeds(env, GitInit) then 1
    else if !Succeeds(env, GitAutocrlf) then 2
    else if !Succeeds(env, GitAddAll) then 3
    else 4
  }

  /** What the effects of `initialize_git_repo` say: every command before the
      last one run succeeded, a failed run stops at a command that failed, and
      every effect and error is one the step may produce. */
  lemma GitInitShape(env: Env, w: World)
    ensures var o := InitializeGitRepo(env, w);
      && 0 < |Since(w, o.world)| <= 4 && Since(w, o.world) == GitInitSequence[..|Since(w, o.world)|]
      && (forall i | 0 <= i < |Since(w, o.world)| - 1 :: Succeeds(env, GitInitSequence[i].command))
      && (o.result.Ok? <==> |Since(w, o.world)| == 4 && Succeeds(env, GitCommit))
      && (o.result.Err? ==>
            var last := GitInitSequence[|Since(w, o.world)| - 1].command;
            !Succeeds(env, last) && IsCommandError(o.result.error, last))
      && (forall e | e in Since(w, o.world) :: GitInitEmits(env, e))
      && (o.result.Err? ==> GitInitFailsWith(o.result.error))
  {
    var o := InitializeGitRepo(env, w);
    var n := GitInitReach(env);
    assert GitInitSequence[0].command == GitInit;
    assert GitInitSequence[1].command == GitAutocrlf;
    assert GitInitSequence[2].command == GitAddAll;
    assert GitInitSequence[3].command == GitCommit;
    assert |Since(w, o.world)| == n;
  }

  // ---------------------------------------------------------------- GitHub

  /** `validate_env_vars`. */
  function ValidateEnvVars(env: Env): (r: Result<()>)
    ensures r.Ok? <==> env.token.Some?
    ensures r.Err? ==> r.error == TokenNotSet
  {
    if env.token.None? then Err(TokenNotSet) else Ok(())
  }

  /** The repository-creation API accepted `repo` with visibility `private`. */
  predicate ApiOk(env: Env, repo: string, private: bool) {
    env.createRepo(repo, private).Response? && IsSuccess(env.createRepo(repo, private).status)
  }

  /** `create_github_repo`: read the token, POST the repository, fail on any
      non-success status with the response body (empty if unreadable). */
  function CreateGithubRepo(env: Env, w: World, repo: string, private: bool): (o: Outcome<()>)
    ensures OnlyTrace(w, o.world)
    ensures env.token.None? ==> o == Outcome(w, Err(TokenNotSet))
    ensures env.token.Some? ==> Since(w, o.world) == [CreateRepo(repo, private)]
    ensures o.result.Ok? <==> env.token.Some? && ApiOk(env, repo, private)
    ensures env.token.Some? && env.createRepo(repo, private).NoResponse? ==> o.result == Err(ApiUnreachable)
    ensures env.token.Some? && env.createRepo(repo, private).Response? && !ApiOk(env, repo, private) ==>
      o.result == Err(GitHubApi(env.createRepo(repo, private).body.GetOr("")))
  {
    match env.token
    case None => Outcome(w, Err(TokenNotSet))
    case Some(_) =>
      var w1 := Record(w, CreateRepo(repo, private));
      match env.createRepo(repo, private)
      case NoResponse => Outcome(w1, Err(ApiUnreachable))
      case Response(status, body) =>
        if IsSuccess(status) then Outcome(w1, Ok(()))
        else Outcome(w1, Err(GitHubApi(body.GetOr(""))))
  }

  /** The owner of the remote: the global `user.name`, trimmed. A value this
      run stored wins over what the environment had before. */
  function Owner(env: Env, w: World): string {
    if "user.name" in w.globalConfig then Trim(w.globalConfig["user.name"]) else ProbedOwner(env)
  }

  /** The global `user.name` as git reported it before this run, trimmed;
      empty when git could not be started. */
  function ProbedOwner(env: Env): string {
    if env.process(GitUserProbe).Exited? then Trim(env.process(GitUserProbe).stdout) else ""
  }

  /** `get_git_username`: run `git config --global user.name` and trim what it
      prints; the exit status is not looked at, only whether it started. */
  function GetGitUsername(env: Env, w: World): (o: Outcome<string>)
    ensures o.world == Record(w, Exec(GitUserProbe))
    ensures o.result.Ok? <==> env.process(GitUserProbe).Exited?
    ensures o.result.Err? ==> o.result.error == SpawnFailed(GitUserProbe)
    ensures o.result.Ok? ==> o.result.value == Owner(env, w) && IsTrimmed(o.result.value)
  {
    var w1 := Record(w, Exec(GitUserProbe));
    match env.process(GitUserProbe)
    case NotSpawned => Outcome(w1, Err(SpawnFailed(GitUserProbe)))
    case Exited(_, out) =>
      if "user.name" in w.globalConfig then
        var stored := w.globalConfig["user.name"];
        TrimIgnoresNewline(stored);
        Outcome(w1, Ok(Trim(stored + "\n")))
      else Outcome(w1, Ok(Trim(out)))
  }

  /** The remote of a repository `repo` owned by `user`. */
  function RemoteUrl(user: string, repo: string): string {
    "https://github.com/" + user + "/" + repo + ".git"
  }

  /** The remote URL reads back as the host prefix, the owner, a slash, the
      repository and the `.git` suffix. */
  lemma RemoteUrlParts(user: string, repo: string)
    ensures var r := RemoteUrl(user, repo);
      && |r| == 24 + |user| + |repo|
      && r[..19] == "https://github.com/"
      && r[19..19 + |user|] == user
      && r[19 + |user|] == '/'
      && r[20 + |user|..20 + |user| + |repo|] == repo
      && r[20 + |user| + |repo|..] == ".git"
  {
  }

  /** `e` registers the remote of `repo` under some owner. */
  ghost predicate IsRemoteAdd(e: Effect, repo: string) {
    e.Exec? && exists user :: e.command == GitRemoteAdd(RemoteUrl(user, repo))
  }

  ghost predicate RemoteEmits(env: Env, repo: string, e: Effect) {
    || e == Exec(GitBranchMain)
    || (&& Succeeds(env, GitBranchMain)
        && (|| e == Exec(GitUserProbe)
            || (&& env.process(GitUserProbe).Exited?
                && (|| IsRemoteAdd(e, repo)
                    || (&& e == Exec(GitPush)
                        && exists user :: Succeeds(env, GitRemoteAdd(RemoteUrl(user, repo))))))))
  }

  ghost predicate RemoteFailsWith(repo: string, err: Error) {
    || IsCommandError(err, GitBranchMain)
    || err == SpawnFailed(GitUserProbe)
    || ((err.SpawnFailed? || err.CommandFailed?) && IsRemoteAdd(Exec(err.command), repo))
    || IsCommandError(err, GitPush)
  }

  /** The commands of `setup_github_remote`, in order, for owner `user`. */
  function RemoteCommands(user: string, repo: string): seq<Effect> {
    [Exec(GitBranchMain), Exec(GitUserProbe), Exec(GitRemoteAdd(RemoteUrl(user, repo))), Exec(GitPush)]
  }

  /** Every command of `setup_github_remote` succeeds when run from `w`. */
  predicate RemoteOk(env: Env, w: World, repo: string) {
    && Succeeds(env, GitBranchMain)
    && env.process(GitUserProbe).Exited?
    && Succeeds(env, GitRemoteAdd(RemoteUrl(Owner(env, w), repo)))
    && Succeeds(env, GitPush)
  }

  /** `setup_github_remote`: rename the branch to main, build the remote URL
      from the global user name, add it as `origin` and push. */
  function SetupGithubRemote(env: Env, w: World, repo: string): (o: Outcome<string>)
    ensures OnlyTrace(w, o.world)
    ensures |Since(w, o.world)| > 0 && Since(w, o.world)[0] == Exec(GitBranchMain)
    ensures o.result.Ok? ==>
      && o.result.value == RemoteUrl(Owner(env, w), repo)
      && Since(w, o.world) == RemoteCommands(Owner(env, w), repo)
    ensures o.result.Ok? <==> RemoteOk(env, w, repo)
    ensures forall e | e in Since(w, o.world) :: RemoteEmits(env, repo, e)
    ensures o.result.Err? ==> RemoteFailsWith(repo, o.result.error)
  {
    var branch := GitCommand(env, w, ["branch", "-M", "main"]);
    if branch.result.Err? then
      assert Since(w, branch.world) == [Exec(GitBranchMain)];
      Outcome(branch.world, Err(branch.result.error))
    else
      var user := GetGitUsername(env, branch.world);
      if user.result.Err? then
        assert Since(w, user.world) == [Exec(GitBranchMain), Exec(GitUserProbe)];
        Outcome(user.world, Err(user.result.error))
      else
        AddRemoteAndPush(env, w, user.world, repo, user.result.value)
  }

  /** Whether or not the push succeeds, the only remote `setup_github_remote`
      adds is that of `repo` under the global user name. */
  lemma RemoteUrlOfOwner(env: Env, w: World, repo: string)
    ensures var o := SetupGithubRemote(env, w, repo);
      forall u | Exec(GitRemoteAdd(u)) in Since(w, o.world) :: u == RemoteUrl(Owner(env, w), repo)
  {
    RemoteAddDistinct();
    var branch := GitCommand(env, w, ["branch", "-M", "main"]);
    if branch.result.Ok? {
      var user := GetGitUsername(env, branch.world);
      if user.result.Ok? {
        assert Owner(env, branch.world) == Owner(env, w);
        assert SetupGithubRemote(env, w, repo) == AddRemoteAndPush(env, w, user.world, repo, user.result.value);
      }
    }
  }

  /** How many of the four commands `setup_github_remote` gets to run from
      `w`: up to and including the first that fails. */
  function RemoteReach(env: Env, w: World, repo: string): (n: nat)
    ensures 1 <= n <= 4
  {
    if !Succeeds(env, GitBranchMain) then 1
    else if !env.process(GitUserProbe).Exited? then 2
    else if !Succeeds(env, GitRemoteAdd(RemoteUrl(Owner(env, w), repo))) then 3
    else 4
  }

  /** `setup_github_remote` runs its commands in order and stops at the first
      that fails, which is then the one its error names: in particular there
      is no push after a failed `git remote add`. */
  lemma RemoteTrace(env: Env, w: World, repo: string)
    ensures var o := SetupGithubRemote(env, w, repo);
      var cs := RemoteCommands(Owner(env, w), repo);
      && Since(w, o.world) == cs[..RemoteReach(env, w, repo)]
      && (o.result.Err? ==> IsCommandError(o.result.error, cs[RemoteReach(env, w, repo) - 1].command))
  {
    RemoteTraceEffects(env, w, repo);
    RemoteTraceError(env, w, repo);
  }

  /** The effects half of `RemoteTrace`. */
  lemma RemoteTraceEffects(env: Env, w: World, repo: string)
    ensures Since(w, SetupGithubRemote(env, w, repo).world)
         == RemoteCommands(Owner(env, w), repo)[..RemoteReach(env, w, repo)]
  {
    var branch := GitCommand(env, w, ["branch", "-M", "main"]);
    if branch.result.Ok? {
      var user := GetGitUsername(env, branch.world);
      if user.result.Ok? {
        assert Owner(env, branch.world) == Owner(env, w);
        assert SetupGithubRemote(env, w, repo) == AddRemoteAndPush(env, w, user.world, repo, Owner(env, w));
      }
    }
  }

  /** The error half of `RemoteTrace`. */
  lemma RemoteTraceError(env: Env, w: World, repo: string)
    ensures var o := SetupGithubRemote(env, w, repo);
      o.result.Err? ==>
        IsCommandError(o.result.error, RemoteCommands(Owner(env, w), repo)[RemoteReach(env, w, repo) - 1].command)
  {
    var branch := GitCommand(env, w, ["branch", "-M", "main"]);
    if branch.result.Ok? {
      var user := GetGitUsername(env, branch.world);
      if user.result.Ok? {
        assert Owner(env, branch.world) == Owner(env, w);
        assert SetupGithubRemote(env, w, repo) == AddRemoteAndPush(env, w, user.world, repo, Owner(env, w));
      }
    }
  }

  /** The last two commands of `setup_github_remote`, once the URL is known. */
  function AddRemoteAndPush(env: Env, w0: World, w: World, repo: string, user: string): (o: Outcome<string>)
    requires w.trace == w0.trace + [Exec(GitBranchMain), Exec(GitUserProbe)]
    requires Succeeds(env, GitBranchMain) && env.process(GitUserProbe).Exited?
    ensures OnlyTrace(w, o.world)
    ensures o.result.Ok? ==>
      && o.result.value == RemoteUrl(user, repo)
      && Since(w0, o.world) == RemoteCommands(user, repo)
    ensures o.result.Ok? <==> Succeeds(env, GitRemoteAdd(RemoteUrl(user, repo))) && Succeeds(env, GitPush)
    ensures Since(w0, o.world) ==
      RemoteCommands(user, repo)[..if Succeeds(env, GitRemoteAdd(RemoteUrl(user, repo))) then 4 else 3]
    ensures forall u | Exec(GitRemoteAdd(u)) in Since(w0, o.world) :: u == RemoteUrl(user, repo)
    ensures forall e | e in Since(w0, o.world) :: RemoteEmits(env, repo, e)
    ensures o.result.Err? ==> RemoteFailsWith(repo, o.result.error)
    ensures o.result.Err? ==>
      IsCommandError(o.result.error,
                     if Succeeds(env, GitRemoteAdd(RemoteUrl(user, repo))) then GitPush else GitRemoteAdd(RemoteUrl(user, repo)))
  {
    var url := RemoteUrl(user, repo);
    var add := GitCommand(env, w, ["remote", "add", "origin", url]);
    assert IsRemoteAdd(Exec(GitRemoteAdd(url)), repo);
    assert Since(w0, add.world) == [Exec(GitBranchMain), Exec(GitUserProbe), Exec(GitRemoteAdd(url))];
    if add.result.Err? then
      Outcome(add.world, Err(add.result.error))
    else
      var push := GitCommand(env, add.world, ["push", "-u", "origin", "main"]);
      assert Since(w0, push.world) == [Exec(GitBranchMain), Exec(GitUserProbe), Exec(GitRemoteAdd(url)), Exec(GitPush)];
      if push.result.Err? then Outcome(push.world, Err(push.result.error))
      else Outcome(push.world, Ok(url))
  }

  ghost predicate GitHubEmits(env: Env, repo: string, private: bool, e: Effect) {
    && env.token.Some?
    && (e == CreateRepo(repo, private) || (ApiOk(env, repo, private) && RemoteEmits(env, repo, e)))
  }

  ghost predicate GitHubFailsWith(repo: string, err: Error) {
    err == TokenNotSet || err == ApiUnreachable || err.GitHubApi? || RemoteFailsWith(repo, err)
  }

  /** The `if args.github_repo` block of `main`: check the token, create the
      repository, then configure the remote and push. Returns the remote URL. */
  function GitHubIntegration(env: Env, w: World, repo: string, private: bool): (o: Outcome<string>)
    ensures OnlyTrace(w, o.world)
    ensures env.token.None? ==> o == Outcome(w, Err(TokenNotSet))
    ensures env.token.Some? ==> |Since(w, o.world)| > 0 && Since(w, o.world)[0] == CreateRepo(repo, private)
    ensures env.token.Some? && !ApiOk(env, repo, private) ==>
      Since(w, o.world) == [CreateRepo(repo, private)] && o.result.Err?
    ensures env.token.Some? && !ApiOk(env, repo, private) ==>
      var created := CreateGithubRepo(env, w, repo, private);
      created.result.Err? && o.result == Err(created.result.error)
    ensures o.result.Ok? ==> o.result.value == RemoteUrl(Owner(env, w), repo)
    ensures forall e | e in Since(w, o.world) :: GitHubEmits(env, repo, private, e)
    ensures o.result.Err? ==> GitHubFailsWith(repo, o.result.error)
  {
    match ValidateEnvVars(env)
    case Err(err) => Outcome(w, Err(err))
    case Ok(_) =>
      var created := CreateGithubRepo(env, w, repo, private);
      if created.result.Err? then Outcome(created.world, Err(created.result.error))
      else SetupGithubRemote(env, created.world, repo)
  }

  /** Whatever becomes of the push, the only remote the GitHub block adds is
      that of `repo` under the global user name. */
  lemma GitHubRemoteUrl(env: Env, w: World, repo: string, private: bool)
    ensures var o := GitHubIntegration(env, w, repo, private);
      forall u | Exec(GitRemoteAdd(u)) in Since(w, o.world) :: u == RemoteUrl(Owner(env, w), repo)
  {
    var o := GitHubIntegration(env, w, repo, private);
    if env.token.Some? {
      var created := CreateGithubRepo(env, w, repo, private);
      if created.result.Ok? {
        var remote := SetupGithubRemote(env, created.world, repo);
        assert o == remote;
        assert Owner(env, created.world) == Owner(env, w) by {
          assert created.world.globalConfig == w.globalConfig;
        }
        RemoteUrlOfOwner(env, created.world, repo);
        SinceAppend(w, created.world, o.world);
        forall u | Exec(GitRemoteAdd(u)) in Since(w, o.world) ensures u == RemoteUrl(Owner(env, w), repo) {
          assert Exec(GitRemoteAdd(u)) != CreateRepo(repo, private);
        }
      }
    }
  }

  /** A prefix of the remote commands that contains the push is all of them. */
  lemma PushEndsRemoteCommands(user: string, repo: string, n: nat)
    requires n <= 4 && Exec(GitPush) in RemoteCommands(user, repo)[..n]
    ensures n == 4
  {
    PushDistinct();
  }

  /** `setup_github_remote` pushes only after `git remote add` of the remote
      of `repo` under the global user name succeeded. */
  lemma PushAfterRemoteAdd(env: Env, w: World, repo: string)
    ensures Exec(GitPush) in Since(w, SetupGithubRemote(env, w, repo).world) ==>
      Succeeds(env, GitRemoteAdd(RemoteUrl(Owner(env, w), repo)))
  {
    RemoteTrace(env, w, repo);
    if Exec(GitPush) in Since(w, SetupGithubRemote(env, w, repo).world) {
      PushEndsRemoteCommands(Owner(env, w), repo, RemoteReach(env, w, repo));
    }
  }

  /** The GitHub block pushes only after `git remote add` of the remote of
      `repo` under the global user name succeeded. */
  lemma GitHubPushAfterAdd(env: Env, w: World, repo: string, private: bool)
    ensures var o := GitHubIntegration(env, w, repo, private);
      Exec(GitPush) in Since(w, o.world) ==> Succeeds(env, GitRemoteAdd(RemoteUrl(Owner(env, w), repo)))
  {
    var o := GitHubIntegration(env, w, repo, private);
    if env.token.Some? {
      var created := CreateGithubRepo(env, w, repo, private);
      if created.result.Ok? {
        assert o == SetupGithubRemote(env, created.world, repo);
        assert Owner(env, created.world) == Owner(env, w) by {
          assert created.world.globalConfig == w.globalConfig;
        }
        PushAfterRemoteAdd(env, created.world, repo);
        SinceAppend(w, created.world, o.world);
      }
    }
  }

  /** The GitHub block succeeds exactly when the token is set, the API accepts
      the repository and every command of `setup_github_remote` succeeds. */
  lemma GitHubIntegrationOk(env: Env, w: World, repo: string, private: bool)
    ensures GitHubIntegration(env, w, repo, private).result.Ok?
        <==> env.token.Some? && ApiOk(env, repo, private) && RemoteOk(env, w, repo)
  {
    var o := GitHubIntegration(env, w, repo, private);
    if env.token.Some? {
      var created := CreateGithubRepo(env, w, repo, private);
      if created.result.Err? {
        assert o == Outcome(created.world, Err(created.result.error));
      } else {
        var remote := SetupGithubRemote(env, created.world, repo);
        assert o == remote;
        assert Owner(env, created.world) == Owner(env, w) by {
          assert created.world.globalConfig == w.globalConfig;
        }
        assert RemoteOk(env, created.world, repo) == RemoteOk(env, w, repo);
      }
    }
  }

  /** Once the API accepted the repository, the GitHub block adds the API call
      and then the commands of `setup_github_remote` up to the first that
      fails, which its error names; a successful block adds all four. */
  lemma GitHubIntegrationTrace(env: Env, w: World, repo: string, private: bool)
    ensures var o := GitHubIntegration(env, w, repo, private);
      var cs := RemoteCommands(Owner(env, w), repo);
      && (env.token.Some? && ApiOk(env, repo, private) ==>
            && Since(w, o.world) == [CreateRepo(repo, private)] + cs[..RemoteReach(env, w, repo)]
            && (o.result.Err? ==> IsCommandError(o.result.error, cs[RemoteReach(env, w, repo) - 1].command)))
      && (o.result.Ok? ==> Since(w, o.world) == [CreateRepo(repo, private)] + cs)
  {
    var o := GitHubIntegration(env, w, repo, private);
    GitHubIntegrationOk(env, w, repo, private);
    if env.token.Some? && ApiOk(env, repo, private) {
      var created := CreateGithubRepo(env, w, repo, private);
      assert created.result.Ok?;
      var remote := SetupGithubRemote(env, created.world, repo);
      assert o == remote;
      assert Owner(env, created.world) == Owner(env, w) by {
        assert created.world.globalConfig == w.globalConfig;
      }
      assert RemoteReach(env, created.world, repo) == RemoteReach(env, w, repo);
      RemoteTrace(env, created.world, repo);
      assert Since(w, created.world) == [CreateRepo(repo, private)];
      SinceAppend(w, created.world, remote.world);
      if o.result.Ok? {
        assert RemoteReach(env, w, repo) == 4;
      }
    }
  }
}

=== FILE: text.dfy ===
/** The part of Rust's `str` the bootstrap relies on: `trim`, which strips
    Unicode White_Space from both ends of a line read from standard input
    and of the output of `git config`. */
module Text {

  /** Unicode White_Space, the class `char::is_whitespace` tests. */
  predicate IsWhitespace(c: char) {
    || ('\t' <= c <= '\r')
    || c == ' '
    || c == '\U{0085}'
    || c == '\U{00A0}'
    || c == '\U{1680}'
    || ('\U{2000}' <= c <= '\U{200A}')
    || c == '\U{2028}'
    || c == '\U{2029}'
    || c == '\U{202F}'
    || c == '\U{205F}'
    || c == '\U{3000}'
  }

  /** Neither end of `s` is whitespace (the empty string included). */
  predicate IsTrimmed(s: string) {
    s == [] || (!IsWhitespace(s[0]) && !IsWhitespace(s[|s| - 1]))
  }

  /** `str::trim_start`: the longest suffix of `s` that does not start with whitespace. */
  function TrimStart(s: string): (r: string)
    ensures |r| <= |s| && r == s[|s| - |r|..]
    ensures forall i :: 0 <= i < |s| - |r| ==> IsWhitespace(s[i])
    ensures r == [] || !IsWhitespace(r[0])
  {
    if |s| > 0 && IsWhitespace(s[0]) then TrimStart(s[1..]) else s
  }

  /** `str::trim_end`: the longest prefix of `s` that does not end with whitespace. */
  function TrimEnd(s: string): (r: string)
    ensures |r| <= |s| && r == s[..|r|]
    ensures forall i :: |r| <= i < |s| ==> IsWhitespace(s[i])
    ensures r == [] || !IsWhitespace(r[|r| - 1])
  {
    if |s| > 0 && IsWhitespace(s[|s| - 1]) then TrimEnd(s[..|s| - 1]) else s
  }

  /** `str::trim`: the input with the whitespace at both ends removed and
      nothing else. */
  function Trim(s: string): (r: string)
    ensures IsTrimmed(r)
    ensures |r| <= |s|
    ensures exists i :: StripsTo(s, i, r)
    ensures IsTrimmed(s) ==> r == s
    ensures r == [] <==> forall i :: 0 <= i < |s| ==> IsWhitespace(s[i])
  {
    var t := TrimStart(s);
    var r := TrimEnd(t);
    TrimmedStretch(s, t, r);
    r
  }

  /** `r` is the stretch of `s` starting at `i`, and everything before and
      after that stretch is whitespace. */
  predicate StripsTo(s: string, i: int, r: string) {
    && 0 <= i <= |s| - |r|
    && r == s[i..i + |r|]
    && (forall k :: 0 <= k < i ==> IsWhitespace(s[k]))
    && (forall k :: i + |r| <= k < |s| ==> IsWhitespace(s[k]))
  }

  /** A suffix `t` of `s` behind whitespace that starts with a non-blank, and
      a prefix `r` of `t` before whitespace that ends with a non-blank: `r` is
      the trimmed stretch of `s`. */
  lemma TrimmedStretch(s: string, t: string, r: string)
    requires |t| <= |s| && t == s[|s| - |t|..]
    requires forall k :: 0 <= k < |s| - |t| ==> IsWhitespace(s[k])
    requires t == [] || !IsWhitespace(t[0])
    requires |r| <= |t| && r == t[..|r|]
    requires forall k :: |r| <= k < |t| ==> IsWhitespace(t[k])
    requires r == [] || !IsWhitespace(r[|r| - 1])
    ensures IsTrimmed(r)
    ensures StripsTo(s, |s| - |t|, r)
    ensures IsTrimmed(s) ==> r == s
    ensures r == [] <==> forall k :: 0 <= k < |s| ==> IsWhitespace(s[k])
  {
    var i := |s| - |t|;
    assert r != [] ==> r[0] == t[0];
    forall k | i + |r| <= k < |s|
      ensures IsWhitespace(s[k])
    {
      assert t[k - i] == s[k];
    }
    BlankStretch(s, i, r);
    if IsTrimmed(s) {
      assert StripsTo(s, 0, s) by { assert s == s[0..|s|]; }
      StretchUnique(s, 0, s, i, r);
    }
  }

  /** A trimmed stretch with only whitespace around it is empty exactly when
      all of `s` is whitespace. */
  lemma BlankStretch(s: string, i: int, r: string)
    requires IsTrimmed(r) && StripsTo(s, i, r)
    ensures r == [] <==> forall k :: 0 <= k < |s| ==> IsWhitespace(s[k])
  {
    if r != [] {
      assert s[i] == r[0];
    }
  }

  /** `s` has at most one trimmed stretch with only whitespace around it. */
  lemma StretchUnique(s: string, i: int, r: string, j: int, t: string)
    requires IsTrimmed(r) && StripsTo(s, i, r)
    requires IsTrimmed(t) && StripsTo(s, j, t)
    ensures r == t
  {
    BlankStretch(s, i, r);
    BlankStretch(s, j, t);
    if r != [] && t != [] {
      // The first and the last character that is not whitespace bound both stretches.
      assert s[i] == r[0] && s[j] == t[0];
      var e, f := i + |r| - 1, j + |t| - 1;
      assert s[e] == r[|r| - 1] && s[f] == t[|t| - 1];
    }
  }

  /** The contract of `Trim` has one solution: a trimmed stretch of `s` with
      only whitespace around it is `Trim(s)`. */
  lemma TrimUnique(s: string, i: int, r: string)
    requires IsTrimmed(r) && StripsTo(s, i, r)
    ensures r == Trim(s)
  {
    var t := Trim(s);
    var j :| StripsTo(s, j, t);
    StretchUnique(s, i, r, j, t);
  }

  /** A blank-padded example: the surrounding spaces go and the letter stays. */
  lemma TrimPadded()
    ensures Trim(" a ") == "a"
  {
    var s := " a ";
    assert IsTrimmed("a");
    assert StripsTo(s, 1, "a");
    TrimUnique(s, 1, "a");
  }

  /** Whitespace in front of a non-blank string is the only thing `TrimStart` removes,
      so text appended after it survives. */
  lemma {:induction false} TrimStartAppend(s: string, t: string)
    requires TrimStart(s) != []
    ensures TrimStart(s + t) == TrimStart(s) + t
  {
    if IsWhitespace(s[0]) {
      assert (s + t)[1..] == s[1..] + t;
      TrimStartAppend(s[1..], t);
    }
  }

  /** A blank prefix disappears entirely under `TrimStart`. */
  lemma {:induction false} TrimStartBlankPrefix(s: string, t: string)
    requires TrimStart(s) == []
    ensures TrimStart(s + t) == TrimStart(t)
  {
    if s != [] {
      assert IsWhitespace(s[0]);
      assert (s + t)[1..] == s[1..] + t;
      TrimStartBlankPrefix(s[1..], t);
    } else {
      assert s + t == t;
    }
  }

  /** Reading back a value `git config` printed with its trailing newline gives
      the value itself, trimmed. */
  lemma {:induction false} TrimIgnoresNewline(s: string)
    ensures Trim(s + "\n") == Trim(s)
  {
    var u := TrimStart(s);
    assert Trim(s) == TrimEnd(u);
    assert Trim(s + "\n") == TrimEnd(TrimStart(s + "\n"));
    if u != [] {
      TrimStartAppend(s, "\n");
      TrimEndNewline(u);
    } else {
      TrimStartBlankPrefix(s, "\n");
      NewlineIsBlank();
    }
  }

  /** A lone newline trims to nothing. */
  lemma NewlineIsBlank()
    ensures TrimStart("\n") == []
  {
    var nl: string := "\n";
    assert nl[1..] == [];
  }

  /** A trailing newline is whitespace, so `TrimEnd` removes it first. */
  lemma TrimEndNewline(u: string)
    ensures TrimEnd(u + "\n") == TrimEnd(u)
  {
    var n := u + "\n";
    assert n[|n| - 1] == '\n';
    assert n[..|n| - 1] == u;
  }
}
